=== FILE: README.md ===
# AnallyticModelGenerator — a Dafny model of the annotation and export core

AnallyticModelGenerator is a desktop tool for building YOLO object-detection
datasets. The user opens a folder of images, draws class-labelled bounding
boxes on them, saves one YOLO label file per image, splits the annotated
images into train / valid / test sets, writes `data.yaml` and
`train_config.yaml`, and starts a training script. This project models the
pure logic of that workflow and proves properties about it.

Modules, one concept each:

| file | module | what it models |
|---|---|---|
| `wrappers.dfy` | `Wrappers` | `Option` and `Result`; a `Result` stands for a Python exception escaping an operation |
| `pytext.dfy` | `PyText` | the Python built-ins the code relies on: negative list indexing, `int()` on a float, `str.strip`, `str.split(sep)`, ASCII `lower`, `os.path.join`, `os.path.dirname` |
| `geometry.dfy` | `Geometry` | points, `QRectF` as `(x, y, w, h)`, `normalized()`, the drag rectangle, the `(rect, class name)` box of the annotation tab |
| `class_table.dfy` | `ClassTable` | the ordered class dictionary (name to colour) and the class editor's add / edit / delete |
| `label_codec.dfy` | `LabelCodec` | encoding a box as a YOLO label line and decoding it back |
| `annotation_store.dfy` | `AnnotationStore` | the per-image box store, folder loading, image loading, navigation, deleting selected boxes, saving label files |
| `drawing_view.dfy` | `DrawingView` | the mouse press / move / release state machine and wheel zoom |
| `dataset_export.dfy` | `DatasetExport` | `export_dataset`: validation, the floor split, the copy-and-label loop with its abort, `data.yaml` and the training configuration |
| `run_name.dfy` | `RunName` | the training script's run-name increment and `data.yaml` path resolution |
| `settings.dfy` | `Settings` | the one-line `settings.txt` format: saving and loading |

Modelling choices:

- Geometry uses `real`. The image width and height are positive integers (`LabelCodec.Dim`).
- A label file is a sequence of lines. Each line is a sequence of whitespace-separated fields. Each field is either a number or a token that `float()` rejects (`LabelCodec.Field`).
- Dialogs, the file system, the image decoder and `random.shuffle` are not called. Their answers are parameters:
  - the text and colour a dialog returned;
  - the directory listing;
  - the image size, or `None` when the image cannot be read;
  - the set of copies that fail;
  - the shuffled order, as a permutation of the image list.
- The annotation tab stores `(QRectF, class name)` pairs. The training tab unpacks `(x1, y1, x2, y2, class name)` tuples. The two are kept apart, as in the code: `Geometry.Box` and `DatasetExport.CornerBox`.

## Model

| member | source | states |
|---|---|---|
| Geometry.Normalized | annotation_tab.py:129 | the normalised rectangle has non-negative sides and spans, on each axis, from the smaller to the larger coordinate of the original |
| Geometry.DragRect | annotation_tab.py:149 | the rectangle between press and release point runs from min to max of the two points on each axis, with non-negative width and height |
| Geometry.DragRectSymmetric | annotation_tab.py:149 | dragging from A to B gives the same rectangle as dragging from B to A |
| DrawingView.Press | annotation_tab.py:85-111 | a right press starts panning at the point; a left press starts a zero-size draft at the point only when a class is selected; any other press leaves the view unchanged |
| DrawingView.Move | annotation_tab.py:113-134 | while panning only the pan anchor moves; while drawing (and not panning) the draft becomes the drag rectangle from the start point and no pan starts; otherwise the view is returned unchanged |
| DrawingView.Release | annotation_tab.py:136-165 | ending a pan clears the anchor and keeps the boxes; a left release while drawing discards a drag narrower or lower than 5 and appends it otherwise to the current image's list; every `Ok` of a left release while drawing clears only the drawing flag and the draft, keeping a held pan anchor, the start point and the zoom; with no current image the append raises (`Err`, annotation_tab.py:155), where the view is not promised since the code never reaches line 161 |
| DrawingView.DragAddsAtMostOneBox | annotation_tab.py:146-161 | with a current image, a press–release drag with a selected class, whether or not a right-button pan is held, succeeds, leaves the view idle and other images' boxes untouched, and adds exactly one box holding the drag rectangle and the class, or none when a side is below 5 |
| DrawingView.Wheel | annotation_tab.py:167-182 | the zoom moves 10 points in the wheel's direction and is clamped to [10, 400]; the scale factor is zoom / 100; nothing else in the view changes |
| DrawingView.WheelClampCanReverse | annotation_tab.py:171-177 | a zoom left below 10 or above 400 by image fitting is pulled back into range by one notch, even against the wheel's direction |
| DrawingView.WheelInOut | annotation_tab.py:169-177 | one notch in then one out restores the view when the zoom stays in range |
| AnnotationStore.IsImageName | annotation_tab.py:293 | a file name is accepted exactly when its lower-cased form ends with one of `.png`, `.jpg`, `.jpeg`, `.tiff`, `.bmp` |
| AnnotationStore.IsImageNameIgnoresCase | annotation_tab.py:293 | a name and its lower-cased form are accepted alike |
| AnnotationStore.ImagePaths | annotation_tab.py:291-294 | the result has exactly the paths of listing entries with an image extension (case-insensitive), joined to the folder |
| AnnotationStore.ImagePathsAppend | annotation_tab.py:291-294 | filtering a concatenated listing concatenates the results, so paths keep listing order |
| AnnotationStore.ImagePathsOne | annotation_tab.py:291-294 | a single entry yields its joined path exactly when it names an image, and nothing otherwise |
| AnnotationStore.LoadFolder | annotation_tab.py:288-310 | a cancelled dialog changes nothing; a folder with images takes them as the list and shows the first, which is loaded as `LoadImage` loads it (labels decoded, unreadable image cleared); a folder without images leaves an empty list, index -1 and no boxes for any image |
| AnnotationStore.LoadFolderTwice | annotation_tab.py:288-310 | choosing the same folder again, with the same listing and files, gives the same tab and message |
| AnnotationStore.LoadImage | annotation_tab.py:312-349 | an index out of range clears; an unreadable image clears and reports; a readable one replaces the current image's boxes by the decoded label file, or by the prefix decoded before a rejected line |
| AnnotationStore.ClearImage | annotation_tab.py:351-359 | with a current image only its box list is emptied; without one every image's boxes are dropped |
| AnnotationStore.NextImage | annotation_tab.py:361-365 | before the last image, moves one forward and loads that image as `LoadImage` does; at or past the last, nothing changes; a valid index stays valid and the list is kept |
| AnnotationStore.PrevImage | annotation_tab.py:367-371 | after the first image, moves one back and loads that image as `LoadImage` does; at or before the first, nothing changes; a valid index stays valid and the list is kept |
| AnnotationStore.NavigationStaysInRange | annotation_tab.py:361-371 | any sequence of next / previous clicks keeps the index within the image list |
| AnnotationStore.AppendBox | annotation_tab.py:156-160 | the box is added at the end of its image's list (a new list when absent); other images are untouched |
| AnnotationStore.FirstMatch | annotation_tab.py:462-465 | finds the first stored box whose rectangle equals the selected one |
| AnnotationStore.DeleteFirstMatch | annotation_tab.py:462-465 | removes the first box with the selected rectangle and keeps the rest in order; no match leaves the list unchanged |
| AnnotationStore.DeleteRemovesAtMostOne | annotation_tab.py:462-465 | deleting one selection removes at most one box and never adds one |
| AnnotationStore.DeleteEach | annotation_tab.py:460-465 | deleting n selected items in turn removes at most n boxes and only boxes that were stored, and a box whose rectangle is not selected is kept as often as it was stored |
| AnnotationStore.DeleteSelected | annotation_tab.py:456-466 | a negative index or an empty selection does nothing; an index past the list raises; a missing list raises exactly when a box is selected; otherwise the current list becomes the result of deleting each selected rectangle's first match in turn, and every other image's list is kept |
| AnnotationStore.SaveForImage | annotation_tab.py:434-454 | nothing is written without a displayed image; otherwise the image's boxes (none when absent) are encoded against the displayed image's size, line by line; on an unknown class the file keeps the lines of the boxes before it and the error is that box's |
| AnnotationStore.SaveAll | annotation_tab.py:429-437 | with no image on screen every per-image save returns at once (annotation_tab.py:435-436) and nothing is written; otherwise each image is saved, in order, as `SaveForImage` saves it against the displayed size, and the run stops after the first save that raised |
| AnnotationStore.SaveEach | annotation_tab.py:429-432 | the files are written for the given paths in order, each holding the encoding of that image's boxes (none when it has no list), and the run stops right after the first file that reports an unknown class |
| ClassTable.Names | annotation_tab.py:453 | `list(classes.keys())`: one name per entry, in insertion order (also training_tab.py:231) |
| ClassTable.IndexOf | annotation_tab.py:453 | the first position of a name, and `None` exactly when the name is absent |
| ClassTable.IndexOfUnique | annotation_tab.py:453 | with unique names, the position of the k-th entry's name is k |
| ClassTable.Assign | class_editor.py:70 | assigning an existing name replaces its colour in place; a new name is appended at the end |
| ClassTable.Remove | class_editor.py:99 | after deleting a name it is absent and every remaining entry was there before |
| ClassTable.RemoveAbsent | class_editor.py:99 | deleting an absent name leaves the table unchanged |
| ClassTable.RemoveAt | class_editor.py:99 | with unique names, deleting the k-th name cuts out exactly entry k |
| ClassTable.RemoveKeepsUnique | class_editor.py:99 | deleting keeps names unique |
| ClassTable.AddClass | class_editor.py:61-71 | a cancelled or empty name, an existing name or a cancelled colour leave the table unchanged; otherwise the new class is appended |
| ClassTable.AddKeepsUnique | class_editor.py:64-70 | adding keeps names unique |
| ClassTable.EditClass | class_editor.py:73-89 | no selection, a cancelled or empty name, a clash with another class or a cancelled colour change nothing; the same name updates the colour in place; a new name removes the old entry and appends the renamed one |
| ClassTable.RemoveAfterAppend | class_editor.py:86-88 | appending a new name and then deleting the old equals deleting first and appending after |
| ClassTable.CutAndAppendIds | class_editor.py:86-88 | cutting entry k and appending one shifts every later position down by one |
| ClassTable.RenameShiftsIds | class_editor.py:86-88 | renaming class k gives it the last class id, moves every later class down by one id and keeps earlier ids |
| ClassTable.EditKeepsUnique | class_editor.py:79-88 | editing keeps names unique |
| ClassTable.DeleteClass | class_editor.py:91-100 | an unconfirmed delete changes nothing; a confirmed one removes the selected name and shrinks the table |
| ClassTable.RemoveShrinks | class_editor.py:99 | deleting a present name shortens the table, and by exactly one when names are unique, as in a dictionary |
| ClassTable.DeleteCutsOut | class_editor.py:91-100 | with unique names, a confirmed delete cuts out exactly the selected entry and later class ids move down by one |
| LabelCodec.EncodeBox | annotation_tab.py:449-454 | an unknown class raises; otherwise the class id is the class's first position and the four values times the image size give the rectangle's centre, width and height |
| LabelCodec.ParseFields | annotation_tab.py:405 | a non-number among the first six fields raises; otherwise exactly five fields are accepted |
| LabelCodec.DecodeLine | annotation_tab.py:405-417 | a field error is passed on; otherwise the line decodes exactly when the truncated class id lies in `-len .. len-1`; a non-negative truncated id (including one from a value in (-1, 0)) names `t[id]` and a negative one `t[len + id]`; an out-of-range id is reported with its value; the rectangle is the centre form scaled by the image size |
| LabelCodec.EncodeBoxes | annotation_tab.py:447-454 | the boxes are encoded in order; the file holds the lines before the first unknown class, which is reported |
| LabelCodec.DecodeLines | annotation_tab.py:401-422 | lines are decoded in order; the loaded boxes are those before the first rejected line, which is reported |
| LabelCodec.Serialize | annotation_tab.py:454 | one line per record, each holding five fields |
| LabelCodec.DenormalizeNormalize | annotation_tab.py:412-415 | turning the normalised centre form back into corner form restores the rectangle |
| LabelCodec.DecodeEncodeBox | annotation_tab.py:412-415 | decoding an encoded box restores the box |
| LabelCodec.EncodeDecodeLine | annotation_tab.py:449-453 | with unique names, encoding a decoded record restores the record |
| LabelCodec.LoadSavedBoxes | annotation_tab.py:404-454 | saving an image's boxes and loading the file back restores the list (exact over reals) |
| LabelCodec.DecodeAllLines | annotation_tab.py:402-420 | lines that each decode to a box load as the whole list of boxes, in order, with no error |
| LabelCodec.ExampleBox | annotation_tab.py:449-454 | the box dragged from (100, 100) to (300, 200) on a 640×480 image with the first class encodes to 0 0.3125 0.3125 0.3125 0.208333… and decodes back to the same box |
| DatasetExport.Validate | training_tab.py:111-121 | the checks run in order and each reports its own error: empty export directory, then no images, then percentages not summing to 100; none fails exactly when all three hold |
| DatasetExport.Share | training_tab.py:145-146 | the share is the floor of n·p/100, never more than n |
| DatasetExport.Partition | training_tab.py:144-150 | train takes the first share, valid the next, test the rest; the three concatenate to the shuffled list |
| DatasetExport.SharesFit | training_tab.py:144-150 | train and valid shares fit in n; test gets the rounding remainder, so it is never smaller than its floor share |
| DatasetExport.PartitionCovers | training_tab.py:148-150 | the three sets together hold exactly the images, as a multiset |
| DatasetExport.PartitionExactlyOnce | training_tab.py:148-150 | with distinct paths, every image lands in exactly one set |
| DatasetExport.TenImagesSplit | training_tab.py:144-150 | 10 images at 70/20/10 split 7/2/1 |
| DatasetExport.EncodeCornerBox | training_tab.py:230-237 | an unknown class raises; otherwise the corner box becomes centre, width and height normalised by the image size |
| DatasetExport.CornerFormulaAgrees | training_tab.py:234-237 | the corner formula gives the same line as the annotation tab's centre formula for the same rectangle |
| DatasetExport.EncodeCornerBoxes | training_tab.py:229-239 | corner boxes are encoded in order up to the first unknown class |
| DatasetExport.ExportImage | training_tab.py:161-178 | the intended step, with `cv2` available: a failed copy stops with nothing done; otherwise the image is copied, and a label file is written only for a non-empty box list of a readable image, holding exactly the records `EncodeCornerBoxes` gives for those boxes at that size; the step fails exactly when that encoding meets an unknown class |
| DatasetExport.ExportImageShape | training_tab.py:163-175 | one image produces one copy and at most one label file, in that order |
| DatasetExport.RunOutcome | training_tab.py:161-178 | for the intended step, over a split of the shuffled list: a run without failure copies every image into its set and labels exactly the images with boxes and a readable size; a stopped run copied the images before the failing one and perhaps that one |
| DatasetExport.Run | training_tab.py:161-178 | the images are processed in schedule order and processing stops at the first failure |
| DatasetExport.RunCopies | training_tab.py:161-178 | a run with no failure copies every scheduled image, in order, into its own set's directory |
| DatasetExport.RunStepsCopies | training_tab.py:161-178 | a loop over outcomes that each copy their own image copies all the images when no outcome fails, and when one fails, the images before it and perhaps that one |
| DatasetExport.RunStepsLabels | training_tab.py:169-175 | a loop that completes writes label files, in order, for exactly the images whose outcome labels them |
| DatasetExport.SelectedHas | training_tab.py:169-175 | an image is among the labelled ones exactly when some scheduled position holds it and labels it |
| DatasetExport.RunLabels | training_tab.py:169-175 | for the intended step, a run with no failure writes a label file for exactly the images with boxes and a readable size |
| DatasetExport.DescribeDataset | training_tab.py:181-188 | `data.yaml` names the three image directories relative to the export directory; nc equals the number of names, which are the classes in order |
| DatasetExport.ConfigFor | training_tab.py:197-207 | the training configuration points at `./data.yaml` and carries the form's model weights, epochs, image size, batch size, learning rate, run name and save-best flag |
| DatasetExport.Export | training_tab.py:104-218 | the intended export, with `cv2` available: invalid input is rejected with the first failing check; a directory failure stops before any copy; after both pass it completes exactly when no image's step fails, and otherwise aborts at the first image whose step fails, with that failure and before `data.yaml`; a completed export has every image copied into its split set, labels exactly the images with boxes and a readable size, and describes both files |
| DatasetExport.RunStops | training_tab.py:161-178 | the intended loop completes exactly when no image's step fails, and otherwise stops at the first image whose step fails, with that failure |
| DatasetExport.ExportImageAsWritten | training_tab.py:163-222 | as the module is written (`cv2` never imported): a failed copy stops with nothing done; an image with a non-empty box list is copied and then fails with the `NameError` of `cv2.imread`; any other image is only copied; no label file is ever written |
| DatasetExport.AnnotatedImageAborts | training_tab.py:161-222 | as written, the loop writes no label file; it completes exactly when every image copies and has no boxes; otherwise it stops at the first image that does not, having copied the images before it, and that image too when its copy worked, in which case it had boxes and the failure is the `NameError` |
| DatasetExport.OutcomeAsWritten | training_tab.py:155-178 | the as-written loop facts over a split of the shuffled list, stated by position in the shuffled list, including that every image before the stop passed |
| DatasetExport.ExportAsWritten | training_tab.py:104-222 | as written, the export is rejected and fails on directories as `Export` does; it completes exactly when every image copies and has no boxes, and then holds the split, `data.yaml` and configuration of `Export` but no label file; otherwise it aborts at the first image that does not pass: one whose copy failed, or right after copying the first annotated image |
| DatasetExport.ImreadUndefinedExample | training_tab.py:170-222 | with no `import cv2` in the module (training_tab.py:1-10), one image `a.png` with a `cat` box, split 100/0/0: as written the export copies it and aborts with the `NameError`; the intended export completes |
| DatasetExport.RunStepsStop | training_tab.py:161-178 | a loop over outcomes completes exactly when no outcome fails, and otherwise stops at the first failing one with its failure |
| DatasetExport.RunStepsNoLabels | training_tab.py:161-178 | a loop over outcomes none of which writes a label file writes none |
| DatasetExport.RunAsWritten | training_tab.py:161-178 | the loop as written, over the per-image outcomes; AnnotatedImageAborts and CopiesAsWritten state when it completes, where it stops and what it copies |
| DatasetExport.CopiesAsWritten | training_tab.py:161-178 | as written, the loop copies every image when it completes, and when it stops, the images before the stopping one and that one too unless its copy failed |
| DatasetExport.ScheduleCoversShuffled | training_tab.py:155-162 | the export visits the shuffled images exactly in shuffled order |
| RunName.Decimal | train_script.py:16 | `str(n)`: a non-empty string of digits, with no leading `0` unless n is 0, whose value is n |
| RunName.DecimalCanonical | train_script.py:16 | every digit string without a leading zero is the spelling of its own value, so `Decimal` is the only such spelling |
| RunName.DecimalInjective | train_script.py:16 | different numbers have different decimal spellings |
| RunName.CandidatesDistinct | train_script.py:13-17 | the base name and the names base1, base2, … are pairwise different |
| RunName.TakenBound | train_script.py:15-17 | a set of taken names can rule out at most as many candidates as it holds |
| RunName.TriedCount | train_script.py:15-17 | the first k suffixed candidates are k different names |
| RunName.IncrementedRunName | train_script.py:9-18 | the result is not taken; it is the base when the base is free; otherwise it is the first of base1, base2, … not taken |
| RunName.DataYamlPath | train_script.py:43 | an absolute `data_yaml` is used as it is; a config path without `/` leaves `data_yaml` relative to the working directory; otherwise `data_yaml` is joined to the config file's directory |
| RunName.DataYamlBesideConfig | train_script.py:43 | for a config at dir/file, absolute or relative dir, a relative name resolves to dir/name |
| RunName.ExportedDataYamlResolves | train_script.py:43 | the `data_yaml` entry the export writes, read from a config file inside any directory (absolute, as the folder dialog gives, or relative), resolves to that directory joined with the entry |
| Settings.TranslateNewlines | settings_tab.py:46 | reading in text mode leaves no `\r`, never lengthens the text, produces a `\n` for every `\r` read, and leaves text without `\r` unchanged |
| Settings.TranslateCrLf | settings_tab.py:46 | a `\r\n` after text without `\r` becomes a single `\n`, the text before it is kept and the text after it is read on its own |
| Settings.TranslateLoneCr | settings_tab.py:46 | a `\r` not followed by `\n` becomes a single `\n` in the same way |
| Settings.TranslateKeepsPrefix | settings_tab.py:46 | text without `\r` in front of anything passes through unchanged |
| Settings.Lines | settings_tab.py:47 | the lines read hold no newline and, joined with newlines, give the translated text back, with its final newline or with a non-empty last line |
| Settings.ParseLine | settings_tab.py:48 | a line unpacks exactly when its stripped text holds one `=`; key and value hold no `=` and, joined by `=`, give the stripped line back; a failure names the line |
| Settings.LoadLines | settings_tab.py:46-50 | loading reports an error exactly when some line does not unpack |
| Settings.LoadLinesApplies | settings_tab.py:47-50 | when every line unpacks, loading applies the unpacked lines in file order and reports no error |
| Settings.LoadStopsAt | settings_tab.py:47-52 | the first line that does not unpack stops loading with its error; the lines before it have already set the value and the lines after it are not read |
| Settings.NoSettingKeeps | settings_tab.py:47-50 | lines without a `default_save_dir` key leave the value unchanged |
| Settings.LastSettingWins | settings_tab.py:47-50 | the value of the last `default_save_dir` line is the one kept, whatever came before it |
| Settings.LoadSettings | settings_tab.py:43-52 | a missing file keeps the current value; an existing file reports an error exactly when one of its lines does not unpack |
| Settings.SplitAtFirst | settings_tab.py:48 | splitting at a separator that occurs once gives the parts before and after it |
| Settings.SaveSettings | settings_tab.py:35-41 | the file written is the one line `default_save_dir=<dir>` ended by a newline; SaveIsOneLine and SettingsRoundTrip state what reading it back gives |
| Settings.SaveIsOneLine | settings_tab.py:39 | a saved file without a line break in the directory is one line |
| Settings.SavedLineParses | settings_tab.py:48 | the saved line unpacks into the key and the directory when the directory has no `=` and does not end in whitespace |
| Settings.SettingsRoundTrip | settings_tab.py:39-50 | loading a saved file gives back the saved directory under those conditions |
| Settings.SplitNoSeparator | settings_tab.py:48 | splitting a string without the separator gives the string itself |
| PyText.Index | annotation_tab.py:406 | Python indexing: non-negative from the start, negative from the end, `None` outside |
| PyText.Trunc | annotation_tab.py:406 | `int()` of a float truncates toward zero |
| PyText.Strip | settings_tab.py:48 | the result is a slice `s[i..j]` with only whitespace outside it and no whitespace at either of its ends, so exactly the outer whitespace is removed; an input with no whitespace at its ends is unchanged |
| PyText.LeadingSpace | settings_tab.py:48 | the count of leading characters that are all whitespace, followed by a non-whitespace character or the end |
| PyText.TrailingStart | settings_tab.py:48 | the start of the trailing run of whitespace (not below the given bound), preceded by a non-whitespace character or the bound |
| PyText.Split | settings_tab.py:48 | the pieces are one more than the separators, hold no separator, and rejoin to the input |
| PyText.Lower | annotation_tab.py:293 | lower-casing keeps the length and maps each character |
| PyText.EndsWithAny | annotation_tab.py:293 | `endswith` with a tuple holds exactly when one of the suffixes ends the string |
| PyText.Join | annotation_tab.py:292 | an absolute second part replaces the first; otherwise the second part is appended, after a `/` unless the first part is empty or already ends with one |
| PyText.HeadLength | train_script.py:43 | the directory part ends just after the last `/` |
| PyText.StripTrailingSlashes | train_script.py:43 | the result is the longest prefix not ending in `/`: only trailing slashes are removed, so a string of slashes becomes empty |
| PyText.Dirname | train_script.py:43 | the directory part is a prefix of the path, empty for a path without `/` and non-empty otherwise; it reaches the head (everything up to the last `/`) except for a run of slashes, and ends in `/` only when it is the whole head and all slashes (the head of `/x` is `/`) |
| PyText.DirnameUnique | train_script.py:43 | those clauses pin the directory part: any string meeting them is `Dirname` |

## Left out

- Widgets, the scene, selection and scroll bars: the pan delta moves scroll bars only, so the model keeps just the pan anchor.
- `fitInView` and the zoom it sets when an image loads: `LoadImage` leaves the view's zoom untouched. `DrawingView.Wheel` is stated for any starting zoom, including one outside [10, 400].
- Label file names (`splitext`, `basename`, the `labels` directory) and `os.makedirs`: files are identified by their image path.
- File I/O errors other than those named: a failing `open` for writing, a failing `data.yaml` or `train_config.yaml` write and `os.makedirs` are reduced to one flag, `dirsOk`, or not modelled.
- Number formatting and parsing: the six-decimal `%.6f` text and `float()` are not modelled. A field is a real or garbage, so the label round trips are exact over reals, where the program loses precision past six decimals.
- IEEE floating point: NaN, infinities, rounding in `n * p / 100` and `int()` of a non-finite value.
- YAML serialisation: `data.yaml` and the configuration are records.
- The training run itself (`ultralytics`, `torch`, the subprocess that starts `train_script.py`) and `main.py`'s window set-up.
- `random.shuffle`: the shuffled order is an input, required to be a permutation of the images. The in-place shuffle of the tab's shared list is not modelled.
- `QColor` validity: a cancelled or invalid colour is `None`.
- `get_classes` returns the editor's dictionary itself; the model's class operations return the new table, so it has no member of its own. Sharing that dictionary between the tabs is not modelled.
- `AnnotationStore.DeleteFirstMatch`: compares rectangles exactly, where `QRectF ==` is a fuzzy comparison.
- `PyText.Lower`: lower-cases ASCII letters only, where `str.lower` covers all of Unicode; `AnnotationStore.IsImageName` inherits this.
- Escaping exceptions: an `Err` stands for an exception leaving the event handler; what PyQt then does is not modelled.
- `DrawingView.Release`: the selected class is a parameter read at release time, as the code reads `current_class` then.
- The training tab never receives the annotation tab's boxes or images in `main.py`; the export is modelled as if `set_image_paths`, `set_classes` and `set_image_boxes` had been called with 5-tuple boxes.

## Behaviour worth knowing

These follow the code where it differs from its own comments or from what a reader might expect:

- Renaming a class moves it to the end of the class list, so its YOLO class id and the ids of every later class change (`ClassTable.RenameShiftsIds`). Deleting a class shifts later ids down by one (`ClassTable.DeleteCutsOut`). Label files saved earlier are not rewritten.
- Choosing a folder without images drops the boxes of every image, not just the current one (`AnnotationStore.LoadFolder`, `AnnotationStore.ClearImage`).
- Switching images does not end a drag in progress: `drawing` and the start point survive `NextImage` and `PrevImage`.
- The run-name docstring promises `runs, runs2, runs3`; the code produces `runs, runs1, runs2` (`RunName.IncrementedRunName`).
- A class id read from a label file is truncated and may be negative, in which case it picks a class from the end of the list (`LabelCodec.DecodeLine`).
- "Save All" writes a label file for every image in the list, including images never opened: an image with no stored boxes gets an empty file, which replaces any label file already there. Every file is encoded against the size of the image on screen, not its own (annotation_tab.py:443-445; `AnnotationStore.SaveAll`).
- `training_tab.py` never imports `cv2`, so exporting an image that has boxes fails after its copy, and the export stops before `data.yaml` (`DatasetExport.ExportAsWritten`; see Findings).
- `settings.txt` is also read by the annotation tab (annotation_tab.py:470-478) with the same line format; `Settings.LoadSettings` models both readers.

## Findings

| source | as written | input that shows it | evidently intended | confidence | as-written member | corrected member |
|---|---|---|---|---|---|---|
| training_tab.py:1-10, 170-178, 222 | `cv2` is never imported, so `save_annotation_to_path` raises `NameError` at `cv2.imread` for every image with a non-empty box list; the `except` at lines 176-178 reports it and returns, after the image was copied and before any label file, `data.yaml` or `train_config.yaml` is written | images `["a.png"]`, boxes `{"a.png": [(0, 0, 10, 10, "cat")]}`, classes `{cat}`, split 100/0/0 | `import cv2` at the top of the module, so the image's size is read and its label file written | high; not executed | DatasetExport.ExportAsWritten (with DatasetExport.AnnotatedImageAborts and DatasetExport.ImreadUndefinedExample) | DatasetExport.Export |

=== FILE: annotation_store.dfy ===
/** The annotation tab's data: the image list of the loaded folder, the
    index of the image on screen (-1 for none) and, per image path, the list
    of boxes drawn or loaded for it. Widgets, the scene and disk access are
    not modelled: what the disk holds for an image comes in as a parameter. */
module AnnotationStore {
  import opened Wrappers
  import opened Geometry
  import opened ClassTable
  import opened LabelCodec
  import PyText

  type BoxMap = map<string, seq<Box>>

  datatype Tab = Tab(paths: seq<string>, index: int, boxes: BoxMap)

  /** The tab starts with no images and index -1. */
  const Initial := Tab([], -1, map[])

  /** The index is -1 exactly when there are no images; otherwise it points
      at one of them. */
  ghost predicate IndexOk(tab: Tab) {
    (|tab.paths| == 0 && tab.index == -1) || 0 <= tab.index < |tab.paths|
  }

  /** The extensions the folder loader accepts. */
  const ImageExtensions: seq<string> := [".png", ".jpg", ".jpeg", ".tiff", ".bmp"]

  /** A file name the folder loader accepts: its lower-cased form ends with
      one of the extensions. */
  predicate IsImageName(f: string): (b: bool)
    ensures b <==> exists i :: 0 <= i < |ImageExtensions| && PyText.EndsWith(PyText.Lower(f), ImageExtensions[i])
  {
    PyText.EndsWithAny(PyText.Lower(f), ImageExtensions)
  }

  /** The test ignores case: a name and its lower-cased form are accepted
      alike. */
  lemma {:induction false} IsImageNameIgnoresCase(f: string)
    ensures IsImageName(f) == IsImageName(PyText.Lower(f))
  {
    var l := PyText.Lower(f);
    assert PyText.Lower(l) == l by {
      forall i | 0 <= i < |l|
        ensures PyText.Lower(l)[i] == l[i]
      {
        assert PyText.LowerChar(PyText.LowerChar(f[i])) == PyText.LowerChar(f[i]);
      }
    }
  }

  /** The folder's image paths, in directory-listing order. */
  function ImagePaths(folder: string, listing: seq<string>): (r: seq<string>)
    ensures |r| <= |listing|
    ensures forall i :: 0 <= i < |listing| && IsImageName(listing[i]) ==>
      PyText.Join(folder, listing[i]) in r
    ensures forall p :: p in r ==>
      exists i :: 0 <= i < |listing| && IsImageName(listing[i]) && p == PyText.Join(folder, listing[i])
  {
    if |listing| == 0 then []
    else
      var rest := ImagePaths(folder, listing[1..]);
      assert forall i :: 1 <= i < |listing| ==> listing[i] == listing[1..][i - 1];
      if IsImageName(listing[0]) then [PyText.Join(folder, listing[0])] + rest else rest
  }

  /** The listing is filtered entry by entry, so the paths keep listing
      order: the paths of a split listing are those of its parts, in order. */
  lemma {:induction false} ImagePathsAppend(folder: string, a: seq<string>, b: seq<string>)
    ensures ImagePaths(folder, a + b) == ImagePaths(folder, a) + ImagePaths(folder, b)
  {
    if |a| > 0 {
      assert (a + b)[0] == a[0];
      assert (a + b)[1..] == a[1..] + b;
      ImagePathsAppend(folder, a[1..], b);
    } else {
      assert a + b == b;
    }
  }

  /** A single entry yields its joined path exactly when it names an image. */
  lemma ImagePathsOne(folder: string, f: string)
    ensures ImagePaths(folder, [f]) == if IsImageName(f) then [PyText.Join(folder, f)] else []
  {
    assert [f][1..] == [];
  }

  /** What the disk holds for the image about to be shown: its pixel size if
      it can be read, and the fields of its label file's lines if there is
      one. */
  datatype ImageFile = ImageFile(size: Option<Size>, labels: Option<seq<seq<Field>>>)

  datatype LoadError = ImageUnreadable | LabelsRejected(error: LabelError)

  /** The tab after showing an image, and the error reported to the user if
      any. */
  datatype Shown = Shown(tab: Tab, error: Option<LoadError>)

  /** `clear_image`: with a valid index, the current image's box list (if it
      has one) is emptied; with no valid index every list is dropped. */
  function ClearImage(tab: Tab): (r: Tab)
    ensures r.paths == tab.paths && r.index == tab.index
    ensures !(0 <= tab.index < |tab.paths|) ==> r.boxes == map[]
    ensures 0 <= tab.index < |tab.paths| ==>
      var path := tab.paths[tab.index];
      && r.boxes.Keys == tab.boxes.Keys
      && (path in r.boxes ==> r.boxes[path] == [])
      && forall p :: p in tab.boxes && p != path ==> r.boxes[p] == tab.boxes[p]
  {
    if 0 <= tab.index < |tab.paths| then
      var path := tab.paths[tab.index];
      if path in tab.boxes then tab.(boxes := tab.boxes[path := []]) else tab
    else tab.(boxes := map[])
  }

  /** `load_image` followed by `load_annotations`: an unreadable image is
      reported and cleared; otherwise the image's list is reset and refilled
      from its label file, line by line, until a line fails to decode. */
  function LoadImage(tab: Tab, file: ImageFile, t: Table): (r: Shown)
    ensures r.tab.paths == tab.paths && r.tab.index == tab.index
    ensures !(0 <= tab.index < |tab.paths|) ==> r == Shown(ClearImage(tab), None)
    ensures 0 <= tab.index < |tab.paths| && file.size.None? ==>
      r == Shown(ClearImage(tab), Some(ImageUnreadable))
    ensures 0 <= tab.index < |tab.paths| && file.size.Some? ==>
      var path := tab.paths[tab.index];
      && r.tab.boxes.Keys == tab.boxes.Keys + {path}
      && (forall p :: p in tab.boxes && p != path ==> r.tab.boxes[p] == tab.boxes[p])
      && (file.labels.None? ==> r.tab.boxes[path] == [] && r.error.None?)
      && (file.labels.Some? ==>
            var loaded := DecodeLines(file.labels.value, t, file.size.value);
            && r.tab.boxes[path] == loaded.boxes
            && (r.error.Some? <==> loaded.error.Some?)
            && (r.error.Some? ==> r.error.value == LabelsRejected(loaded.error.value)))
  {
    if !(0 <= tab.index < |tab.paths|) then Shown(ClearImage(tab), None)
    else match file.size
      case None => Shown(ClearImage(tab), Some(ImageUnreadable))
      case Some(size) =>
        var path := tab.paths[tab.index];
        match file.labels
        case None => Shown(tab.(boxes := tab.boxes[path := []]), None)
        case Some(lines) =>
          var loaded := DecodeLines(lines, t, size);
          var err := if loaded.error.Some? then Some(LabelsRejected(loaded.error.value)) else None;
          Shown(tab.(boxes := tab.boxes[path := loaded.boxes]), err)
  }

  /** `load_folder`: `folder` is the chosen directory ("" when the dialog was
      cancelled), `listing` its entries and `file` what the disk holds for
      the first image. A folder without images drops every box list. */
  function LoadFolder(tab: Tab, folder: string, listing: seq<string>, file: ImageFile, t: Table): (r: Shown)
    ensures folder == "" ==> r == Shown(tab, None)
    ensures folder != "" ==> IndexOk(r.tab) && r.tab.paths == ImagePaths(folder, listing)
    ensures folder != "" && |ImagePaths(folder, listing)| > 0 ==>
      r.tab.index == 0 && r == LoadImage(Tab(ImagePaths(folder, listing), 0, tab.boxes), file, t)
    ensures folder != "" && |ImagePaths(folder, listing)| == 0 ==>
      r == Shown(Tab([], -1, map[]), None)
  {
    if folder == "" then Shown(tab, None)
    else
      var paths := ImagePaths(folder, listing);
      if |paths| > 0 then LoadImage(Tab(paths, 0, tab.boxes), file, t)
      else
        var cleared := ClearImage(tab.(paths := paths));
        Shown(cleared.(index := -1), None)
  }

  /** Choosing the same folder again, with the disk unchanged, gives the
      same tab and the same report: loading a folder is idempotent. */
  lemma LoadFolderTwice(tab: Tab, folder: string, listing: seq<string>, file: ImageFile, t: Table)
    ensures var once := LoadFolder(tab, folder, listing, file, t);
      LoadFolder(once.tab, folder, listing, file, t) == once
  {
    var once := LoadFolder(tab, folder, listing, file, t);
    var paths := ImagePaths(folder, listing);
    if folder != "" && |paths| > 0 {
      var first := Tab(paths, 0, tab.boxes);
      var again := Tab(paths, 0, once.tab.boxes);
      if file.size.None? {
        assert once.tab == ClearImage(first);
        assert ClearImage(again) == ClearImage(first);
      } else {
        assert once.tab.boxes == tab.boxes[paths[0] := once.tab.boxes[paths[0]]];
        assert again.boxes[paths[0] := once.tab.boxes[paths[0]]] == once.tab.boxes;
      }
    }
  }

  /** `next_image`: moves forward one image and shows it, unless already at
      the last image. */
  function NextImage(tab: Tab, file: ImageFile, t: Table): (r: Shown)
    ensures IndexOk(tab) ==> IndexOk(r.tab)
    ensures r.tab.paths == tab.paths
    ensures tab.index < |tab.paths| - 1 ==>
      r.tab.index == tab.index + 1 && r == LoadImage(tab.(index := tab.index + 1), file, t)
    ensures tab.index >= |tab.paths| - 1 ==> r == Shown(tab, None)
  {
    if tab.index < |tab.paths| - 1 then LoadImage(tab.(index := tab.index + 1), file, t)
    else Shown(tab, None)
  }

  /** `prev_image`: moves back one image and shows it, unless already at the
      first. */
  function PrevImage(tab: Tab, file: ImageFile, t: Table): (r: Shown)
    ensures IndexOk(tab) ==> IndexOk(r.tab)
    ensures r.tab.paths == tab.paths
    ensures tab.index > 0 ==>
      r.tab.index == tab.index - 1 && r == LoadImage(tab.(index := tab.index - 1), file, t)
    ensures tab.index <= 0 ==> r == Shown(tab, None)
  {
    if tab.index > 0 then LoadImage(tab.(index := tab.index - 1), file, t)
    else Shown(tab, None)
  }

  /** Navigation never leaves the image list: from a valid state, any
      sequence of next/previous steps keeps the index within
      `0 .. |paths| - 1` (or at -1 with no images). */
  lemma {:induction false} NavigationStaysInRange(tab: Tab, forward: seq<bool>, files: seq<ImageFile>, t: Table)
    requires IndexOk(tab) && |files| == |forward|
    ensures IndexOk(Navigate(tab, forward, files, t))
    decreases |forward|
  {
    if |forward| > 0 {
      var s := if forward[0] then NextImage(tab, files[0], t) else PrevImage(tab, files[0], t);
      NavigationStaysInRange(s.tab, forward[1..], files[1..], t);
    }
  }

  /** A run of next (`true`) and previous (`false`) presses. */
  function Navigate(tab: Tab, forward: seq<bool>, files: seq<ImageFile>, t: Table): Tab
    requires |files| == |forward|
    decreases |forward|
  {
    if |forward| == 0 then tab
    else
      var s := if forward[0] then NextImage(tab, files[0], t) else PrevImage(tab, files[0], t);
      Navigate(s.tab, forward[1..], files[1..], t)
  }

  /** Storing a finished drag: the image's list is created if absent and the
      box appended; no other image's list changes. */
  function AppendBox(boxes: BoxMap, path: string, b: Box): (r: BoxMap)
    ensures r.Keys == boxes.Keys + {path}
    ensures path in boxes ==> r[path] == boxes[path] + [b]
    ensures path !in boxes ==> r[path] == [b]
    ensures forall p :: p in boxes && p != path ==> r[p] == boxes[p]
  {
    var current := if path in boxes then boxes[path] else [];
    boxes[path := current + [b]]
  }

  /** Position of the first box whose rectangle equals `rect` (`|s|` when
      there is none). */
  function FirstMatch(s: seq<Box>, rect: Rect): (k: nat)
    ensures k <= |s|
    ensures k < |s| ==> s[k].rect == rect
    ensures forall j :: 0 <= j < k ==> s[j].rect != rect
  {
    if |s| == 0 then 0
    else if s[0].rect == rect then 0
    else 1 + FirstMatch(s[1..], rect)
  }

  /** Removing the first box whose rectangle equals `rect`; the other boxes
      keep their order, and nothing changes when no rectangle matches. */
  function DeleteFirstMatch(s: seq<Box>, rect: Rect): (r: seq<Box>)
    ensures (forall i :: 0 <= i < |s| ==> s[i].rect != rect) ==> r == s
    ensures forall k :: (0 <= k < |s| && s[k].rect == rect
      && forall j :: 0 <= j < k ==> s[j].rect != rect) ==> r == s[..k] + s[k + 1..]
  {
    var k := FirstMatch(s, rect);
    if k < |s| then s[..k] + s[k + 1..] else s
  }

  /** One deletion removes at most one box, adds none, and keeps every box
      whose rectangle differs. */
  lemma DeleteRemovesAtMostOne(s: seq<Box>, rect: Rect)
    ensures |s| - 1 <= |DeleteFirstMatch(s, rect)| <= |s|
    ensures multiset(DeleteFirstMatch(s, rect)) <= multiset(s)
    ensures forall b: Box :: b.rect != rect ==> multiset(DeleteFirstMatch(s, rect))[b] == multiset(s)[b]
  {
    var k := FirstMatch(s, rect);
    if k < |s| {
      assert s == s[..k] + [s[k]] + s[k + 1..];
    }
  }

  /** Removing, for each selected rectangle in turn, its first match: at
      most one stored box goes per selection, none is invented, and a box
      whose rectangle is not selected stays as often as it was stored. */
  function DeleteEach(s: seq<Box>, rects: seq<Rect>): (r: seq<Box>)
    ensures |s| - |rects| <= |r| <= |s|
    ensures multiset(r) <= multiset(s)
    ensures forall b: Box :: (forall j :: 0 <= j < |rects| ==> rects[j] != b.rect) ==>
      multiset(r)[b] == multiset(s)[b]
  {
    if |rects| == 0 then s
    else
      DeleteRemovesAtMostOne(s, rects[0]);
      DeleteEach(DeleteFirstMatch(s, rects[0]), rects[1..])
  }

  datatype StoreError = NoSuchImage | NoBoxList(path: string)

  /** `delete_selected_box`: `selected` are the rectangles of the selected
      box items. Python raises when the index does not name an image, or when
      items are selected but the image has no list. */
  function DeleteSelected(tab: Tab, selected: seq<Rect>): (r: Result<Tab, StoreError>)
    ensures tab.index < 0 ==> r == Ok(tab)
    ensures r.Ok? ==> r.value.paths == tab.paths && r.value.index == tab.index
    ensures r.Ok? ==> r.value.boxes.Keys == tab.boxes.Keys
    ensures r.Ok? && 0 <= tab.index < |tab.paths| ==>
      forall p :: p in tab.boxes && p != tab.paths[tab.index] ==> r.value.boxes[p] == tab.boxes[p]
    ensures r.Ok? && 0 <= tab.index < |tab.paths| && tab.paths[tab.index] in tab.boxes ==>
      var path := tab.paths[tab.index];
      |tab.boxes[path]| - |selected| <= |r.value.boxes[path]| <= |tab.boxes[path]|
      && multiset(r.value.boxes[path]) <= multiset(tab.boxes[path])
    ensures r.Ok? && 0 <= tab.index < |tab.paths| && tab.paths[tab.index] in tab.boxes ==>
      r.value.boxes[tab.paths[tab.index]] == DeleteEach(tab.boxes[tab.paths[tab.index]], selected)
    ensures 0 <= tab.index < |tab.paths| && |selected| > 0 ==>
      (r.Err? <==> tab.paths[tab.index] !in tab.boxes)
    ensures tab.index >= |tab.paths| ==> r == Err(NoSuchImage)
    ensures 0 <= tab.index < |tab.paths| && |selected| == 0 ==> r == Ok(tab)
  {
    if tab.index < 0 then Ok(tab)
    else match PyText.Index(tab.paths, tab.index)
      case None => Err(NoSuchImage)
      case Some(path) =>
        if |selected| == 0 then Ok(tab)
        else if path !in tab.boxes then Err(NoBoxList(path))
        else
          Ok(tab.(boxes := tab.boxes[path := DeleteEach(tab.boxes[path], selected)]))
  }

  /** The boxes stored for `path`, none if it has no list. */
  function BoxesOf(tab: Tab, path: string): seq<Box> {
    if path in tab.boxes then tab.boxes[path] else []
  }

  /** `save_annotation_for_image`: nothing is written without an image on
      screen; otherwise the image's boxes are encoded, in order, against the
      size of the image on screen, whichever image `path` names. */
  function SaveForImage(tab: Tab, path: string, onScreen: Option<Size>, t: Table): (r: Option<Written>)
    ensures onScreen.None? <==> r.None?
    ensures r.Some? && path !in tab.boxes ==> r.value == Written([], None)
    ensures r.Some? ==>
      var boxes := BoxesOf(tab, path);
      && |r.value.records| <= |boxes|
      && (r.value.error.None? <==> forall i :: 0 <= i < |boxes| ==> boxes[i].className in Names(t))
      && (r.value.error.None? ==> |r.value.records| == |boxes|)
      && forall i :: 0 <= i < |r.value.records| ==>
           EncodeBox(boxes[i], t, onScreen.value) == Ok(r.value.records[i])
    ensures r.Some? && r.value.error.Some? ==>
      var boxes := BoxesOf(tab, path);
      |r.value.records| < |boxes| && EncodeBox(boxes[|r.value.records|], t, onScreen.value) == Err(r.value.error.value)
  {
    match onScreen
    case None => None
    case Some(size) => Some(EncodeBoxes(BoxesOf(tab, path), t, size))
  }

  /** The images a save-all run wrote, each with the file saved for it,
      stopping at the first error. */
  ghost predicate SavedInOrder(r: seq<Written>, tab: Tab, paths: seq<string>, size: Size, t: Table) {
    && |r| <= |paths|
    && (forall i :: 0 <= i < |r| ==> r[i] == EncodeBoxes(BoxesOf(tab, paths[i]), t, size))
    && (forall i :: 0 <= i < |r| - 1 ==> r[i].error.None?)
    && (|r| < |paths| ==> |r| > 0 && r[|r| - 1].error.Some?)
  }

  /** Saving the first image successfully and then the rest. */
  lemma SaveAllStep(w: Written, rest: seq<Written>, tab: Tab, paths: seq<string>, size: Size, t: Table)
    requires |paths| > 0 && w == EncodeBoxes(BoxesOf(tab, paths[0]), t, size) && w.error.None?
    requires SavedInOrder(rest, tab, paths[1..], size, t)
    ensures SavedInOrder([w] + rest, tab, paths, size, t)
  {
    var r := [w] + rest;
    forall i | 0 <= i < |r|
      ensures r[i] == EncodeBoxes(BoxesOf(tab, paths[i]), t, size)
    {
      if i > 0 {
        assert r[i] == rest[i - 1];
        assert paths[1..][i - 1] == paths[i];
      }
    }
    forall i | 0 <= i < |r| - 1
      ensures r[i].error.None?
    {
      if i > 0 {
        assert r[i] == rest[i - 1];
      }
    }
  }

  /** The loop of `save_all_annotations` once an image is on screen: the
      images are saved in order against the size of the image on screen,
      and the first encoding error propagates and stops the remaining
      saves. */
  function SaveEach(tab: Tab, paths: seq<string>, size: Size, t: Table): (r: seq<Written>)
    ensures SavedInOrder(r, tab, paths, size, t)
  {
    if |paths| == 0 then []
    else
      var w := EncodeBoxes(BoxesOf(tab, paths[0]), t, size);
      if w.error.Some? then [w]
      else
        var rest := SaveEach(tab, paths[1..], size, t);
        SaveAllStep(w, rest, tab, paths, size, t);
        [w] + rest
  }

  /** `save_all_annotations`: `save_annotation_for_image` for every image of
      the list in order. Without an image on screen (`onScreen` is `None`,
      as after an unreadable image) each call returns at once and nothing is
      written; otherwise each file holds what `SaveForImage` computes, and
      the first error stops the run. */
  function SaveAll(tab: Tab, onScreen: Option<Size>, t: Table): (r: seq<Written>)
    ensures onScreen.None? ==> r == []
    ensures onScreen.Some? ==> SavedInOrder(r, tab, tab.paths, onScreen.value, t)
    ensures forall i :: 0 <= i < |r| ==> SaveForImage(tab, tab.paths[i], onScreen, t) == Some(r[i])
  {
    match onScreen
    case None => []
    case Some(size) => SaveEach(tab, tab.paths, size, t)
  }
}

=== FILE: class_table.dfy ===
/** The class table edited by the class editor dialog: an insertion-ordered
    dictionary from class name to display colour. A class's position in the
    table is its numeric id in label files, so every edit that reorders the
    table changes ids. */
module ClassTable {
  import opened Wrappers

  /** A `QColor` as its three 8-bit channels. */
  datatype Color = Color(red: int, green: int, blue: int)

  datatype Entry = Entry(name: string, color: Color)

  /** The dictionary in its iteration order. */
  type Table = seq<Entry>

  ghost predicate UniqueNames(t: Table) {
    forall i, j :: 0 <= i < j < |t| ==> t[i].name != t[j].name
  }

  /** `list(classes.keys())`. */
  function Names(t: Table): (r: seq<string>)
    ensures |r| == |t|
    ensures forall i :: 0 <= i < |t| ==> r[i] == t[i].name
  {
    seq(|t|, i requires 0 <= i < |t| => t[i].name)
  }

  /** `list(classes.keys()).index(name)`: the first position holding `name`,
      or `None` where Python raises ValueError. */
  function IndexOf(t: Table, name: string): (r: Option<nat>)
    ensures r.None? <==> name !in Names(t)
    ensures r.Some? ==> r.value < |t| && t[r.value].name == name
    ensures r.Some? ==> forall j :: 0 <= j < r.value ==> t[j].name != name
  {
    if |t| == 0 then None
    else if t[0].name == name then Some(0)
    else match IndexOf(t[1..], name)
      case None => None
      case Some(i) => Some(i + 1)
  }

  /** With unique names, the position of the entry at `i` is `i`. */
  lemma IndexOfUnique(t: Table, i: nat)
    requires UniqueNames(t) && i < |t|
    ensures IndexOf(t, t[i].name) == Some(i)
  {
    IndexOfOnly(t, t[i].name, i);
  }

  /** A name held at `k` and nowhere else is found at `k`. */
  lemma IndexOfOnly(t: Table, name: string, k: nat)
    requires OnlyAt(t, name, k)
    ensures IndexOf(t, name) == Some(k)
  {
    assert Names(t)[k] == name;
  }

  /** `classes[name] = color`: an existing key keeps its position and takes
      the new colour; a new key goes to the end. */
  function Assign(t: Table, name: string, color: Color): (r: Table)
    ensures name in Names(t) ==> |r| == |t|
    ensures name in Names(t) ==> forall i :: 0 <= i < |t| ==>
      r[i] == (if t[i].name == name then Entry(name, color) else t[i])
    ensures name !in Names(t) ==> r == t + [Entry(name, color)]
  {
    if name in Names(t) then
      seq(|t|, i requires 0 <= i < |t| => if t[i].name == name then Entry(name, color) else t[i])
    else t + [Entry(name, color)]
  }

  /** `del classes[name]`: drop the entry, keep the others in order. */
  function Remove(t: Table, name: string): (r: Table)
    ensures |r| <= |t|
    ensures name !in Names(r)
    ensures forall i :: 0 <= i < |r| ==> r[i] in t
  {
    if |t| == 0 then []
    else if t[0].name == name then Remove(t[1..], name)
    else [t[0]] + Remove(t[1..], name)
  }

  /** Removing an absent key changes nothing. */
  lemma {:induction false} RemoveAbsent(t: Table, name: string)
    requires name !in Names(t)
    ensures Remove(t, name) == t
  {
    if |t| > 0 {
      assert name !in Names(t[1..]) by {
        assert forall i :: 0 <= i < |t| - 1 ==> Names(t[1..])[i] == Names(t)[i + 1];
      }
      RemoveAbsent(t[1..], name);
    }
  }

  /** With unique names, deleting the key at position `k` is cutting out
      element `k`: the classes before it keep their ids, the classes after it
      move down by one. */
  lemma RemoveAt(t: Table, name: string)
    requires UniqueNames(t) && IndexOf(t, name).Some?
    ensures var k := IndexOf(t, name).value; Remove(t, name) == t[..k] + t[k + 1..]
  {
    RemoveOnly(t, name, IndexOf(t, name).value);
  }

  /** Position `k` is the only one holding `name`. */
  ghost predicate OnlyAt(t: Table, name: string, k: nat) {
    k < |t| && t[k].name == name && forall j :: 0 <= j < |t| && j != k ==> t[j].name != name
  }

  /** Deleting a key held only at `k` cuts out element `k`. */
  lemma {:induction false} RemoveOnly(t: Table, name: string, k: nat)
    requires OnlyAt(t, name, k)
    ensures Remove(t, name) == t[..k] + t[k + 1..]
  {
    var tail := t[1..];
    if k == 0 {
      assert name !in Names(tail) by {
        forall i | 0 <= i < |tail| ensures Names(tail)[i] != name {
          assert tail[i] == t[i + 1];
        }
      }
      RemoveAbsent(tail, name);
    } else {
      assert OnlyAt(tail, name, k - 1) by {
        forall j | 0 <= j < |tail| && j != k - 1 ensures tail[j].name != name {
          assert tail[j] == t[j + 1];
        }
      }
      RemoveOnly(tail, name, k - 1);
      assert [t[0]] + tail[..k - 1] == t[..k];
      assert tail[k..] == t[k + 1..];
    }
  }

  /** Deleting a key keeps names unique. */
  lemma {:induction false} RemoveKeepsUnique(t: Table, name: string)
    requires UniqueNames(t)
    ensures UniqueNames(Remove(t, name))
  {
    if |t| > 0 {
      RemoveKeepsUnique(t[1..], name);
      var rest := Remove(t[1..], name);
      assert forall i :: 0 <= i < |rest| ==> rest[i] in t[1..];
    }
  }

  /** The "Add" button: the user typed `input` (None when the name dialog was
      cancelled) and picked `color` (None when the colour dialog was
      cancelled). */
  function AddClass(t: Table, input: Option<string>, color: Option<Color>): (r: Table)
    ensures input.None? || input.value == "" ==> r == t
    ensures input.Some? && input.value in Names(t) ==> r == t
    ensures color.None? ==> r == t
    ensures input.Some? && input.value != "" && input.value !in Names(t) && color.Some? ==>
      |r| == |t| + 1 && r[..|t|] == t && r[|t|] == Entry(input.value, color.value)
  {
    match input
    case None => t
    case Some(name) =>
      if name == "" || name in Names(t) || color.None? then t
      else Assign(t, name, color.value)
  }

  /** Adding a class keeps names unique. */
  lemma AddKeepsUnique(t: Table, input: Option<string>, color: Option<Color>)
    requires UniqueNames(t)
    ensures UniqueNames(AddClass(t, input, color))
  {
    var r := AddClass(t, input, color);
    if r != t {
      forall i, j | 0 <= i < j < |r| ensures r[i].name != r[j].name {
        if j == |t| {
          assert Names(t)[i] == t[i].name;
        }
      }
    }
  }

  /** Renaming requested from `current` to `name` in the "Edit" dialog. */
  predicate IsRename(t: Table, current: string, name: string) {
    name != "" && name != current && name !in Names(t)
  }

  /** The "Edit" button on the selected class `selected`: a new name typed
      into the dialog (None when cancelled) and a colour from the colour
      dialog (None when cancelled). Renaming assigns the new key and then
      deletes the old one, so the renamed class moves to the end. */
  function EditClass(t: Table, selected: Option<string>, input: Option<string>, color: Option<Color>): (r: Table)
    requires selected.Some? ==> selected.value in Names(t)
    ensures selected.None? || input.None? || input.value == "" || color.None? ==> r == t
    ensures (selected.Some? && input.Some? && input.value != selected.value
             && input.value in Names(t)) ==> r == t
    ensures (selected.Some? && input.Some? && input.value == selected.value
             && input.value != "" && color.Some?) ==>
      |r| == |t| && forall i :: 0 <= i < |t| ==>
        r[i].name == t[i].name && (r[i].name != selected.value ==> r[i] == t[i])
        && (r[i].name == selected.value ==> r[i].color == color.value)
    ensures (selected.Some? && input.Some? && IsRename(t, selected.value, input.value)
             && color.Some?) ==>
      r == Remove(t, selected.value) + [Entry(input.value, color.value)]
  {
    match selected
    case None => t
    case Some(current) =>
      match input
      case None => t
      case Some(name) =>
        if name == "" || (name != current && name in Names(t)) || color.None? then t
        else if name == current then Assign(t, name, color.value)
        else
          RemoveAfterAppend(t, current, Entry(name, color.value));
          Remove(Assign(t, name, color.value), current)
  }

  /** Deleting a key that is not the appended one commutes with the append. */
  lemma {:induction false} RemoveAfterAppend(t: Table, gone: string, e: Entry)
    requires e.name != gone
    ensures Remove(t + [e], gone) == Remove(t, gone) + [e]
  {
    if |t| == 0 {
      assert Remove([e][1..], gone) == [];
    } else {
      assert (t + [e])[1..] == t[1..] + [e];
      RemoveAfterAppend(t[1..], gone, e);
    }
  }

  /** Cutting element `k` out of a table with unique names and appending an
      entry with a fresh name: names stay unique, earlier ids are kept, later
      ids drop by one and the new entry takes the last id. */
  lemma CutAndAppendIds(t: Table, k: nat, e: Entry)
    requires UniqueNames(t) && k < |t| && e.name !in Names(t)
    ensures var r := t[..k] + t[k + 1..] + [e];
      && UniqueNames(r)
      && IndexOf(r, e.name) == Some(|t| - 1)
      && (forall j :: 0 <= j < k ==> IndexOf(r, t[j].name) == Some(j))
      && (forall j :: k < j < |t| ==> IndexOf(r, t[j].name) == Some(j - 1))
  {
    var r := t[..k] + t[k + 1..] + [e];
    CutAndAppendUnique(t, k, e);
    assert forall j :: 0 <= j < k ==> r[j] == t[j];
    assert forall j :: k < j < |t| ==> r[j - 1] == t[j];
    assert r[|t| - 1] == e;
    ShiftedIds(t, k, r);
  }

  /** In a table with unique names that keeps the entries before `k` and
      moves the entries after `k` down by one, ids follow the entries. */
  lemma ShiftedIds(t: Table, k: nat, r: Table)
    requires UniqueNames(r) && |r| == |t| && k < |t|
    requires forall j :: 0 <= j < k ==> r[j] == t[j]
    requires forall j :: k < j < |t| ==> r[j - 1] == t[j]
    ensures IndexOf(r, r[|t| - 1].name) == Some(|t| - 1)
    ensures forall j :: 0 <= j < k ==> IndexOf(r, t[j].name) == Some(j)
    ensures forall j :: k < j < |t| ==> IndexOf(r, t[j].name) == Some(j - 1)
  {
    AllIdsUnique(r);
  }

  /** With unique names, every entry's id is its position. */
  lemma AllIdsUnique(t: Table)
    requires UniqueNames(t)
    ensures forall i :: 0 <= i < |t| ==> IndexOf(t, t[i].name) == Some(i)
  {
    forall i | 0 <= i < |t| ensures IndexOf(t, t[i].name) == Some(i) {
      IndexOfUnique(t, i);
    }
  }

  /** Cutting an entry out and appending one with a fresh name keeps names
      unique. */
  lemma CutAndAppendUnique(t: Table, k: nat, e: Entry)
    requires UniqueNames(t) && k < |t| && e.name !in Names(t)
    ensures UniqueNames(t[..k] + t[k + 1..] + [e])
  {
    var r := t[..k] + t[k + 1..] + [e];
    assert |r| == |t|;
    forall i, j | 0 <= i < j < |r| ensures r[i].name != r[j].name {
      var i' := if i < k then i else i + 1;
      assert r[i] == t[i'];
      if j == |r| - 1 {
        assert r[j] == e;
        assert Names(t)[i'] == t[i'].name;
      } else {
        var j' := if j < k then j else j + 1;
        assert r[j] == t[j'];
      }
    }
  }

  /** A successful rename cuts the class out of its position and appends it,
      with its new colour, at the end: every class that came after it has its
      id lowered by one, the renamed class gets the last id, and the classes
      before it keep theirs. */
  lemma RenameShiftsIds(t: Table, current: string, name: string, c: Color)
    requires UniqueNames(t) && current in Names(t) && IsRename(t, current, name)
    ensures var k := IndexOf(t, current).value;
      var r := EditClass(t, Some(current), Some(name), Some(c));
      && r == t[..k] + t[k + 1..] + [Entry(name, c)]
      && UniqueNames(r)
      && IndexOf(r, name) == Some(|t| - 1)
      && (forall j :: 0 <= j < k ==> IndexOf(r, t[j].name) == Some(j))
      && (forall j :: k < j < |t| ==> IndexOf(r, t[j].name) == Some(j - 1))
  {
    RemoveAt(t, current);
    CutAndAppendIds(t, IndexOf(t, current).value, Entry(name, c));
  }

  /** Every edit keeps names unique. */
  lemma EditKeepsUnique(t: Table, selected: Option<string>, input: Option<string>, color: Option<Color>)
    requires UniqueNames(t)
    requires selected.Some? ==> selected.value in Names(t)
    ensures UniqueNames(EditClass(t, selected, input, color))
  {
    if selected.Some? && input.Some? && IsRename(t, selected.value, input.value) && color.Some? {
      RenameShiftsIds(t, selected.value, input.value, color.value);
    }
  }

  /** The "Delete" button on the selected class, confirmed or not. */
  function DeleteClass(t: Table, selected: Option<string>, confirmed: bool): (r: Table)
    requires selected.Some? ==> selected.value in Names(t)
    ensures selected.None? || !confirmed ==> r == t
    ensures selected.Some? && confirmed ==> |r| < |t| && selected.value !in Names(r)
    ensures forall i :: 0 <= i < |r| ==> r[i] in t
  {
    match selected
    case None => t
    case Some(name) => if confirmed then RemoveShrinks(t, name); Remove(t, name) else t
  }

  /** Removing a present key shortens the table, by exactly one entry when
      the names are unique, as a dictionary's keys are. */
  lemma {:induction false} RemoveShrinks(t: Table, name: string)
    requires name in Names(t)
    ensures |Remove(t, name)| < |t|
    ensures UniqueNames(t) ==> |Remove(t, name)| == |t| - 1
  {
    if t[0].name != name {
      assert Names(t[1..]) == Names(t)[1..];
      RemoveShrinks(t[1..], name);
    }
    if UniqueNames(t) {
      RemoveAt(t, name);
    }
  }

  /** Deleting a class removes exactly that class: the others keep their
      relative order and colours, and names stay unique. */
  lemma DeleteCutsOut(t: Table, name: string)
    requires UniqueNames(t) && name in Names(t)
    ensures var k := IndexOf(t, name).value;
      var r := DeleteClass(t, Some(name), true);
      r == t[..k] + t[k + 1..] && UniqueNames(r)
  {
    RemoveAt(t, name);
    RemoveKeepsUnique(t, name);
  }
}

=== FILE: dataset_export.dfy ===
/** The training tab's dataset export: validate the form, shuffle the image
    list, cut it into train/valid/test by floor percentages, copy every
    image, write a label file for every annotated image, then describe the
    dataset and the training run. The shuffle, the disk and the images'
    pixel sizes come in as parameters. */
module DatasetExport {
  import opened Wrappers
  import opened ClassTable
  import opened LabelCodec

  /** A box as the training tab unpacks it: two corners and a class name. */
  datatype CornerBox = CornerBox(x1: real, y1: real, x2: real, y2: real, className: string)

  /** The three spin boxes, each in `0 .. 100`. */
  datatype Percentages = Percentages(train: int, valid: int, test: int)

  predicate InSpinRange(p: Percentages) {
    0 <= p.train <= 100 && 0 <= p.valid <= 100 && 0 <= p.test <= 100
  }

  datatype ValidationError = NoExportDir | NoImages | BadPercentages

  /** The three checks, in order, made before anything touches the disk. */
  function Validate(exportDir: string, images: seq<string>, p: Percentages): (r: Option<ValidationError>)
    ensures r.None? <==> exportDir != "" && |images| > 0 && p.train + p.valid + p.test == 100
    ensures exportDir == "" ==> r == Some(NoExportDir)
    ensures exportDir != "" && |images| == 0 ==> r == Some(NoImages)
    ensures exportDir != "" && |images| > 0 && p.train + p.valid + p.test != 100 ==>
      r == Some(BadPercentages)
  {
    if exportDir == "" then Some(NoExportDir)
    else if |images| == 0 then Some(NoImages)
    else if p.train + p.valid + p.test != 100 then Some(BadPercentages)
    else None
  }

  /** `int(n * pct / 100)`: the floor share of `n` images. */
  function Share(n: nat, pct: int): (k: nat)
    requires 0 <= pct <= 100
    ensures k * 100 <= n * pct < (k + 1) * 100
    ensures k <= n
  {
    n * pct / 100
  }

  /** The three slices of the shuffled list. */
  datatype Split = Split(train: seq<string>, valid: seq<string>, test: seq<string>)

  /** `shuffled[:a]`, `shuffled[a:a+b]`, `shuffled[a+b:]` with `a`, `b` the
      floor shares of train and valid: test takes the remainder. */
  function Partition(shuffled: seq<string>, p: Percentages): (s: Split)
    requires InSpinRange(p) && p.train + p.valid + p.test == 100
    ensures |s.train| == Share(|shuffled|, p.train)
    ensures |s.valid| == Share(|shuffled|, p.valid)
    ensures |s.test| == |shuffled| - |s.train| - |s.valid|
    ensures s.train + s.valid + s.test == shuffled
  {
    var n := |shuffled|;
    var a := Share(n, p.train);
    var b := Share(n, p.valid);
    SharesFit(n, p);
    Split(shuffled[..a], shuffled[a..a + b], shuffled[a + b..])
  }

  /** The train and valid shares never exceed the list, and the test slice
      is at least the floor share of its own percentage: it absorbs the
      rounding loss of the other two. */
  lemma SharesFit(n: nat, p: Percentages)
    requires InSpinRange(p) && p.train + p.valid + p.test == 100
    ensures Share(n, p.train) + Share(n, p.valid) <= n
    ensures n - Share(n, p.train) - Share(n, p.valid) >= Share(n, p.test)
  {
    var a := Share(n, p.train);
    var b := Share(n, p.valid);
    var c := Share(n, p.test);
    assert a * 100 + b * 100 + c * 100 <= n * p.train + n * p.valid + n * p.test;
    assert n * p.train + n * p.valid + n * p.test == n * (p.train + p.valid + p.test);
  }

  /** Every shuffled image lands in exactly one partition: the slices'
      multisets add up to the shuffled list's, which is the original
      list's. */
  lemma PartitionCovers(images: seq<string>, shuffled: seq<string>, p: Percentages)
    requires InSpinRange(p) && p.train + p.valid + p.test == 100
    requires multiset(shuffled) == multiset(images)
    ensures var s := Partition(shuffled, p);
      && |s.train| + |s.valid| + |s.test| == |images|
      && multiset(s.train) + multiset(s.valid) + multiset(s.test) == multiset(images)
      && |s.test| >= Share(|images|, p.test)
  {
    var s := Partition(shuffled, p);
    assert multiset(s.train + s.valid + s.test) == multiset(s.train) + multiset(s.valid) + multiset(s.test);
    assert |shuffled| == |multiset(images)| == |images|;
    SharesFit(|images|, p);
  }

  /** A path that occurs once in a list of distinct paths has count one. */
  lemma DistinctCountOne(s: seq<string>, x: string)
    requires forall i, j :: 0 <= i < j < |s| ==> s[i] != s[j]
    requires x in s
    ensures multiset(s)[x] == 1
  {
    var k :| 0 <= k < |s| && s[k] == x;
    forall i | 0 <= i < |s| && i != k ensures s[i] != x {
      if i < k {
        assert s[i] != s[k];
      } else {
        assert s[k] != s[i];
      }
    }
    OccursOnce(s, k);
  }

  /** An element found at `k` and nowhere else occurs once. */
  lemma OccursOnce(s: seq<string>, k: nat)
    requires k < |s| && forall i :: 0 <= i < |s| && i != k ==> s[i] != s[k]
    ensures multiset(s)[s[k]] == 1
  {
    var x, before, after := s[k], s[..k], s[k + 1..];
    assert s == before + [x] + after;
    assert x !in before by {
      forall i | 0 <= i < |before| ensures before[i] != x {
        assert before[i] == s[i];
      }
    }
    assert x !in after by {
      forall i | 0 <= i < |after| ensures after[i] != x {
        assert after[i] == s[k + 1 + i];
      }
    }
    assert multiset(s) == multiset(before) + multiset([x]) + multiset(after);
  }

  /** With distinct paths, each image is in exactly one slice. */
  lemma PartitionExactlyOnce(shuffled: seq<string>, p: Percentages, x: string)
    requires InSpinRange(p) && p.train + p.valid + p.test == 100
    requires forall i, j :: 0 <= i < j < |shuffled| ==> shuffled[i] != shuffled[j]
    requires x in shuffled
    ensures var s := Partition(shuffled, p);
      (if x in s.train then 1 else 0) + (if x in s.valid then 1 else 0)
      + (if x in s.test then 1 else 0) == 1
  {
    var s := Partition(shuffled, p);
    DistinctCountOne(shuffled, x);
    assert multiset(s.train + s.valid + s.test) == multiset(s.train) + multiset(s.valid) + multiset(s.test);
    assert multiset(s.train)[x] + multiset(s.valid)[x] + multiset(s.test)[x] == 1;
  }

  /** Ten images at 70/20/10 split 7/2/1. */
  lemma TenImagesSplit(shuffled: seq<string>)
    requires |shuffled| == 10
    ensures var s := Partition(shuffled, Percentages(70, 20, 10));
      |s.train| == 7 && |s.valid| == 2 && |s.test| == 1
  {
  }

  /** `save_annotation_to_path`'s normalization of one box: corner midpoint
      and extent divided by the image size; a class missing from the table
      is an error. */
  function EncodeCornerBox(b: CornerBox, t: Table, size: Size): (r: Result<Record, LabelError>)
    ensures r.Ok? <==> b.className in Names(t)
    ensures r.Ok? ==>
      && r.value.classId < |t| && t[r.value.classId].name == b.className
      && (forall j :: 0 <= j < r.value.classId ==> t[j].name != b.className)
      && r.value.xc * 2.0 * size.width as real == b.x1 + b.x2
      && r.value.yc * 2.0 * size.height as real == b.y1 + b.y2
      && r.value.w * size.width as real == b.x2 - b.x1
      && r.value.h * size.height as real == b.y2 - b.y1
  {
    var W := size.width as real;
    var H := size.height as real;
    match IndexOf(t, b.className)
    case None => Err(UnknownClass(b.className))
    case Some(id) =>
      Ok(Record(id, ((b.x1 + b.x2) / 2.0) / W, ((b.y1 + b.y2) / 2.0) / H, (b.x2 - b.x1) / W, (b.y2 - b.y1) / H))
  }

  /** The export's corner formula and the annotation view's centre formula
      agree on a box given by its top-left and bottom-right corners. */
  lemma CornerFormulaAgrees(b: Geometry.Box, t: Table, size: Size)
    ensures var r := b.rect;
      EncodeCornerBox(CornerBox(r.x, r.y, r.x + r.w, r.y + r.h, b.className), t, size)
      == EncodeBox(b, t, size)
  {
    var r := b.rect;
    assert (r.x + (r.x + r.w)) / 2.0 == r.x + r.w / 2.0;
    assert (r.y + (r.y + r.h)) / 2.0 == r.y + r.h / 2.0;
  }

  /** Encoding an image's boxes in order until the first unknown class,
      which raises with the earlier lines already in the file. */
  function EncodeCornerBoxes(boxes: seq<CornerBox>, t: Table, size: Size): (r: Written)
    ensures r.error.None? <==> forall i :: 0 <= i < |boxes| ==> boxes[i].className in Names(t)
    ensures r.error.None? ==> |r.records| == |boxes|
    ensures r.error.Some? ==>
      |r.records| < |boxes| && EncodeCornerBox(boxes[|r.records|], t, size) == Err(r.error.value)
    ensures forall i :: 0 <= i < |r.records| ==> EncodeCornerBox(boxes[i], t, size) == Ok(r.records[i])
  {
    if |boxes| == 0 then Written([], None)
    else match EncodeCornerBox(boxes[0], t, size)
      case Err(e) => Written([], Some(e))
      case Ok(rec) =>
        var rest := EncodeCornerBoxes(boxes[1..], t, size);
        Written([rec] + rest.records, rest.error)
  }

  datatype Part = TrainPart | ValidPart | TestPart

  /** What the export does to the disk, in order. */
  datatype Effect =
    | CopyImage(part: Part, path: string)
    | WriteLabels(part: Part, path: string, records: seq<Record>)

  /** The disk as the export sees it: the images whose copy raises, and the
      pixel size of each image `cv2.imread` can read. */
  datatype Disk = Disk(copyFails: set<string>, sizes: map<string, Size>)

  datatype Failure =
    | CopyFailed(path: string)
    | LabelFailed(path: string, error: LabelError)
    | ImreadUndefined(path: string)   // NameError: the module never imports `cv2`

  /** The image has a non-empty box list, so the export tries to label it. */
  predicate HasBoxes(path: string, boxes: map<string, seq<CornerBox>>) {
    path in boxes && |boxes[path]| > 0
  }

  /** The work for one image: copy it, then, if it has boxes, write its
      label file; an unreadable image gets a warning and no file. */
  function ExportImage(part: Part, path: string, boxes: map<string, seq<CornerBox>>, t: Table, disk: Disk)
    : (r: (seq<Effect>, Option<Failure>))
    ensures path in disk.copyFails ==> r == ([], Some(CopyFailed(path)))
    ensures path !in disk.copyFails ==> |r.0| > 0 && r.0[0] == CopyImage(part, path)
    ensures path !in disk.copyFails ==>
      (|r.0| == 2 <==> path in boxes && |boxes[path]| > 0 && path in disk.sizes)
    ensures |r.0| <= 2
    ensures |r.0| == 2 ==> r.0[1].WriteLabels? && r.0[1].part == part && r.0[1].path == path
    ensures r.1.Some? && path !in disk.copyFails ==> |r.0| == 2
    ensures path !in disk.copyFails && !GetsLabels(path, boxes, disk) ==> r == ([CopyImage(part, path)], None)
    ensures path !in disk.copyFails && GetsLabels(path, boxes, disk) ==>
      var w := EncodeCornerBoxes(boxes[path], t, disk.sizes[path]);
      && r.0[1].records == w.records
      && (r.1.Some? <==> w.error.Some?)
      && (w.error.Some? ==> r.1 == Some(LabelFailed(path, w.error.value)))
  {
    if path in disk.copyFails then ([], Some(CopyFailed(path)))
    else if path in boxes && |boxes[path]| > 0 && path in disk.sizes then
      var w := EncodeCornerBoxes(boxes[path], t, disk.sizes[path]);
      var err := if w.error.Some? then Some(LabelFailed(path, w.error.value)) else None;
      ([CopyImage(part, path), WriteLabels(part, path, w.records)], err)
    else ([CopyImage(part, path)], None)
  }

  /** The images to process, in the order the export loop visits them. */
  function Schedule(s: Split): seq<(Part, string)> {
    seq(|s.train|, i requires 0 <= i < |s.train| => (TrainPart, s.train[i]))
    + seq(|s.valid|, i requires 0 <= i < |s.valid| => (ValidPart, s.valid[i]))
    + seq(|s.test|, i requires 0 <= i < |s.test| => (TestPart, s.test[i]))
  }

  /** The images copied by a run of effects. */
  function Copied(effects: seq<Effect>): seq<(Part, string)> {
    if |effects| == 0 then []
    else
      var head := if effects[0].CopyImage? then [(effects[0].part, effects[0].path)] else [];
      head + Copied(effects[1..])
  }

  /** The images that got a label file in a run of effects. */
  function Labelled(effects: seq<Effect>): seq<string> {
    if |effects| == 0 then []
    else (if effects[0].WriteLabels? then [effects[0].path] else []) + Labelled(effects[1..])
  }

  /** The export loop: the first failure stops every remaining copy. */
  datatype Progress = Progress(effects: seq<Effect>, stopped: Option<(nat, Failure)>)

  /** The image would get a label file: it has boxes and `cv2.imread` can
      read it. */
  ghost predicate GetsLabels(path: string, boxes: map<string, seq<CornerBox>>, disk: Disk) {
    HasBoxes(path, boxes) && path in disk.sizes
  }

  /** One image's outcome: its effects and the failure that stops the loop. */
  type Step = (seq<Effect>, Option<Failure>)

  /** The export loop over the outcomes of its images: the first failure
      stops it, and the images after it are never touched. */
  function RunSteps(steps: seq<Step>): (r: Progress)
    ensures r.stopped.Some? ==> r.stopped.value.0 < |steps|
  {
    if |steps| == 0 then Progress([], None)
    else if steps[0].1.Some? then Progress(steps[0].0, Some((0, steps[0].1.value)))
    else
      var rest := RunSteps(steps[1..]);
      var stopped := if rest.stopped.Some? then Some((rest.stopped.value.0 + 1, rest.stopped.value.1)) else None;
      Progress(steps[0].0 + rest.effects, stopped)
  }

  /** Each image's outcome, as `ExportImage` computes it. */
  function Outcomes(items: seq<(Part, string)>, boxes: map<string, seq<CornerBox>>, t: Table, disk: Disk): (r: seq<Step>)
    ensures |r| == |items|
    ensures forall i :: 0 <= i < |items| ==> r[i] == ExportImage(items[i].0, items[i].1, boxes, t, disk)
  {
    seq(|items|, i requires 0 <= i < |items| => ExportImage(items[i].0, items[i].1, boxes, t, disk))
  }

  /** `export_dataset`'s copy loop over the scheduled images. */
  function Run(items: seq<(Part, string)>, boxes: map<string, seq<CornerBox>>, t: Table, disk: Disk): (r: Progress)
    ensures r.stopped.Some? ==> r.stopped.value.0 < |items|
  {
    RunSteps(Outcomes(items, boxes, t, disk))
  }

  /** An outcome that copies its image: exactly that image unless it failed;
      possibly nothing when it failed. */
  ghost predicate CopiesItem(step: Step, item: (Part, string)) {
    && (step.1.None? ==> Copied(step.0) == [item])
    && (step.1.Some? ==> Copied(step.0) == [] || Copied(step.0) == [item])
  }

  /** A run of outcomes that each copy their own image copies the images in
      order: all of them when no outcome fails, and when the outcome of item
      `k` fails, the items before it followed by what that outcome copied. */
  lemma {:induction false} RunStepsCopies(steps: seq<Step>, items: seq<(Part, string)>)
    requires |steps| == |items|
    requires forall i :: 0 <= i < |steps| ==> CopiesItem(steps[i], items[i])
    ensures var r := RunSteps(steps);
      && (r.stopped.None? ==> Copied(r.effects) == items)
      && (r.stopped.Some? ==>
            Copied(r.effects) == items[..r.stopped.value.0] + Copied(steps[r.stopped.value.0].0))
  {
    if |steps| > 0 {
      assert CopiesItem(steps[0], items[0]);
      if steps[0].1.None? {
        assert forall i :: 0 <= i < |steps| - 1 ==> steps[1..][i] == steps[i + 1] && items[1..][i] == items[i + 1];
        RunStepsCopies(steps[1..], items[1..]);
        CopiesCons(steps, items);
      } else {
        assert items[..0] == [];
      }
    }
  }

  /** The step of `RunStepsCopies`: a first outcome that copies its item
      without failing puts that item in front of what the rest copies. */
  lemma CopiesCons(steps: seq<Step>, items: seq<(Part, string)>)
    requires |steps| == |items| > 0
    requires steps[0].1.None? && Copied(steps[0].0) == [items[0]]
    requires var rest := RunSteps(steps[1..]);
      && (rest.stopped.None? ==> Copied(rest.effects) == items[1..])
      && (rest.stopped.Some? ==>
            Copied(rest.effects) == items[1..][..rest.stopped.value.0] + Copied(steps[1..][rest.stopped.value.0].0))
    ensures var r := RunSteps(steps);
      && (r.stopped.None? ==> Copied(r.effects) == items)
      && (r.stopped.Some? ==>
            Copied(r.effects) == items[..r.stopped.value.0] + Copied(steps[r.stopped.value.0].0))
  {
    var rest := RunSteps(steps[1..]);
    var r := RunSteps(steps);
    CopiedAppend(steps[0].0, rest.effects);
    if rest.stopped.Some? {
      var k := rest.stopped.value.0;
      assert r.stopped.value.0 == k + 1;
      assert steps[1..][k] == steps[k + 1];
      ConsPrefix(items, k);
    } else {
      assert items == [items[0]] + items[1..];
    }
  }

  /** A run that completes copies every scheduled image in order; a run that
      stops at item `k` has copied the items before it (and `k` itself when
      the copy succeeded and its label file failed), and nothing after. */
  lemma RunCopies(items: seq<(Part, string)>, boxes: map<string, seq<CornerBox>>, t: Table, disk: Disk)
    ensures var r := Run(items, boxes, t, disk);
      && (r.stopped.None? ==> Copied(r.effects) == items)
      && (r.stopped.Some? ==>
            (Copied(r.effects) == items[..r.stopped.value.0]
             || Copied(r.effects) == items[..r.stopped.value.0 + 1]))
  {
    var steps := Outcomes(items, boxes, t, disk);
    EachCopies(items, boxes, t, disk);
    RunStepsCopies(steps, items);
    var r := RunSteps(steps);
    assert r == Run(items, boxes, t, disk);
    if r.stopped.Some? {
      var k := r.stopped.value.0;
      RunStepsStop(steps);
      assert Copied(r.effects) == items[..k] + Copied(steps[k].0);
      StopCopies(items, k, boxes, t, disk);
    }
  }

  /** The images before position `k` followed by what the outcome at `k`
      copies are those before `k`, perhaps with `k` itself. */
  lemma StopCopies(items: seq<(Part, string)>, k: nat, boxes: map<string, seq<CornerBox>>, t: Table, disk: Disk)
    requires k < |items|
    ensures var step := Outcomes(items, boxes, t, disk)[k];
      items[..k] + Copied(step.0) == items[..k] || items[..k] + Copied(step.0) == items[..k + 1]
  {
    ExportImageShape(items[k].0, items[k].1, boxes, t, disk);
    assert items[..k + 1] == items[..k] + [items[k]];
    assert items[..k] + [] == items[..k];
  }

  /** Every image's outcome copies that image or nothing. */
  lemma EachCopies(items: seq<(Part, string)>, boxes: map<string, seq<CornerBox>>, t: Table, disk: Disk)
    ensures var steps := Outcomes(items, boxes, t, disk);
      forall i :: 0 <= i < |items| ==> CopiesItem(steps[i], items[i])
  {
    var steps := Outcomes(items, boxes, t, disk);
    forall i | 0 <= i < |items| ensures CopiesItem(steps[i], items[i]) {
      ExportImageShape(items[i].0, items[i].1, boxes, t, disk);
    }
  }

  lemma ConsPrefix<T>(s: seq<T>, k: nat)
    requires 0 < |s| && k < |s|
    ensures s[..k + 1] == [s[0]] + s[1..][..k]
  {
  }

  /** An outcome without failure writes labels for its image exactly when
      `gets` says so. */
  ghost predicate LabelsItem(step: Step, path: string, gets: bool) {
    step.1.None? ==> Labelled(step.0) == (if gets then [path] else [])
  }

  /** The paths whose flag is set, in order. */
  function Selected(paths: seq<string>, gets: seq<bool>): seq<string>
    requires |paths| == |gets|
  {
    if |paths| == 0 then []
    else (if gets[0] then [paths[0]] else []) + Selected(paths[1..], gets[1..])
  }

  /** A path is selected exactly when some position holds it with its flag
      set. */
  lemma {:induction false} SelectedHas(paths: seq<string>, gets: seq<bool>, p: string)
    requires |paths| == |gets|
    ensures p in Selected(paths, gets) <==> exists i :: 0 <= i < |paths| && paths[i] == p && gets[i]
  {
    if |paths| > 0 {
      SelectedHas(paths[1..], gets[1..], p);
      if exists i :: 0 <= i < |paths| && paths[i] == p && gets[i] {
        var i :| 0 <= i < |paths| && paths[i] == p && gets[i];
        if i > 0 {
          assert paths[1..][i - 1] == p && gets[1..][i - 1];
        }
      }
      if p in Selected(paths[1..], gets[1..]) {
        var i :| 0 <= i < |paths| - 1 && paths[1..][i] == p && gets[1..][i];
        assert paths[i + 1] == p && gets[i + 1];
      }
    }
  }

  /** A run that completes labels, in order, exactly the images whose
      outcome labels them. */
  lemma {:induction false} RunStepsLabels(steps: seq<Step>, paths: seq<string>, gets: seq<bool>)
    requires |steps| == |paths| == |gets|
    requires forall i :: 0 <= i < |steps| ==> LabelsItem(steps[i], paths[i], gets[i])
    ensures var r := RunSteps(steps);
      r.stopped.None? ==> Labelled(r.effects) == Selected(paths, gets)
  {
    var r := RunSteps(steps);
    if |steps| > 0 && r.stopped.None? {
      assert LabelsItem(steps[0], paths[0], gets[0]);
      assert forall i :: 0 <= i < |steps| - 1 ==>
        steps[1..][i] == steps[i + 1] && paths[1..][i] == paths[i + 1] && gets[1..][i] == gets[i + 1];
      RunStepsLabels(steps[1..], paths[1..], gets[1..]);
      LabelledAppend(steps[0].0, RunSteps(steps[1..]).effects);
    }
  }

  /** A run that completes writes a label file for exactly the scheduled
      images that have a non-empty box list and a readable size. */
  lemma RunLabels(items: seq<(Part, string)>, boxes: map<string, seq<CornerBox>>, t: Table, disk: Disk)
    ensures var r := Run(items, boxes, t, disk);
      r.stopped.None? ==>
        forall p :: p in Labelled(r.effects) <==>
          exists i :: 0 <= i < |items| && items[i].1 == p && GetsLabels(p, boxes, disk)
  {
    var steps := Outcomes(items, boxes, t, disk);
    var paths := seq(|items|, i requires 0 <= i < |items| => items[i].1);
    var gets := seq(|items|, i requires 0 <= i < |items| => GetsLabels(items[i].1, boxes, disk));
    forall i | 0 <= i < |items| ensures LabelsItem(steps[i], paths[i], gets[i]) {
      ExportImageShape(items[i].0, items[i].1, boxes, t, disk);
    }
    RunStepsLabels(steps, paths, gets);
    forall p ensures p in Selected(paths, gets)
                     <==> (exists i :: 0 <= i < |items| && items[i].1 == p && GetsLabels(p, boxes, disk))
    {
      SelectedHas(paths, gets, p);
      if exists i :: 0 <= i < |items| && items[i].1 == p && GetsLabels(p, boxes, disk) {
        var i :| 0 <= i < |items| && items[i].1 == p && GetsLabels(p, boxes, disk);
        assert paths[i] == p && gets[i];
      }
    }
  }

  /** One image's effects copy it unless its copy fails, and write its label
      file exactly when it has boxes and a readable size. */
  lemma ExportImageShape(part: Part, path: string, boxes: map<string, seq<CornerBox>>, t: Table, disk: Disk)
    ensures var (first, _) := ExportImage(part, path, boxes, t, disk);
      && Copied(first) == (if path in disk.copyFails then [] else [(part, path)])
      && Labelled(first) == (if path !in disk.copyFails && GetsLabels(path, boxes, disk) then [path] else [])
  {
    var (first, _) := ExportImage(part, path, boxes, t, disk);
    if path in disk.copyFails {
      assert first == [];
    } else if GetsLabels(path, boxes, disk) {
      var w := EncodeCornerBoxes(boxes[path], t, disk.sizes[path]);
      assert first == [CopyImage(part, path), WriteLabels(part, path, w.records)];
      assert first[1..] == [WriteLabels(part, path, w.records)];
      assert first[1..][1..] == [];
      assert Copied(first[1..]) == [];
      assert Labelled(first[1..]) == [path];
    } else {
      assert first == [CopyImage(part, path)];
      assert first[1..] == [];
    }
  }

  lemma {:induction false} CopiedAppend(a: seq<Effect>, b: seq<Effect>)
    ensures Copied(a + b) == Copied(a) + Copied(b)
  {
    if |a| == 0 {
      assert a + b == b;
    } else {
      assert (a + b)[0] == a[0];
      assert (a + b)[1..] == a[1..] + b;
      CopiedAppend(a[1..], b);
    }
  }

  lemma {:induction false} LabelledAppend(a: seq<Effect>, b: seq<Effect>)
    ensures Labelled(a + b) == Labelled(a) + Labelled(b)
  {
    if |a| == 0 {
      assert a + b == b;
    } else {
      assert (a + b)[0] == a[0];
      assert (a + b)[1..] == a[1..] + b;
      LabelledAppend(a[1..], b);
    }
  }

  /** Where a run stops: it completes exactly when no outcome fails, and
      otherwise it stops at the first failing outcome, with its failure. */
  lemma {:induction false} RunStepsStop(steps: seq<Step>)
    ensures var r := RunSteps(steps);
      && (r.stopped.None? <==> forall i :: 0 <= i < |steps| ==> steps[i].1.None?)
      && (r.stopped.Some? ==>
            && steps[r.stopped.value.0].1 == Some(r.stopped.value.1)
            && forall i :: 0 <= i < r.stopped.value.0 ==> steps[i].1.None?)
  {
    if |steps| > 0 && steps[0].1.None? {
      RunStepsStop(steps[1..]);
      assert forall i :: 1 <= i < |steps| ==> steps[i] == steps[1..][i - 1];
    }
  }

  /** Outcomes that label nothing make a run that labels nothing. */
  lemma {:induction false} RunStepsNoLabels(steps: seq<Step>)
    requires forall i :: 0 <= i < |steps| ==> Labelled(steps[i].0) == []
    ensures Labelled(RunSteps(steps).effects) == []
  {
    if |steps| > 0 && steps[0].1.None? {
      assert forall i :: 0 <= i < |steps| - 1 ==> steps[1..][i] == steps[i + 1];
      RunStepsNoLabels(steps[1..]);
      LabelledAppend(steps[0].0, RunSteps(steps[1..]).effects);
    }
  }

  /** The work for one image as the module is written: `cv2` is used by
      `save_annotation_to_path` but never imported, so every image with a
      non-empty box list raises NameError right after its copy, before any
      label file is opened. */
  function ExportImageAsWritten(part: Part, path: string, boxes: map<string, seq<CornerBox>>, disk: Disk)
    : (r: Step)
    ensures path in disk.copyFails ==> r == ([], Some(CopyFailed(path)))
    ensures path !in disk.copyFails && HasBoxes(path, boxes) ==>
      r == ([CopyImage(part, path)], Some(ImreadUndefined(path)))
    ensures path !in disk.copyFails && !HasBoxes(path, boxes) ==> r == ([CopyImage(part, path)], None)
    ensures Labelled(r.0) == []
  {
    if path in disk.copyFails then ([], Some(CopyFailed(path)))
    else if HasBoxes(path, boxes) then ([CopyImage(part, path)], Some(ImreadUndefined(path)))
    else ([CopyImage(part, path)], None)
  }

  /** Each image's outcome as the module is written. */
  function OutcomesAsWritten(items: seq<(Part, string)>, boxes: map<string, seq<CornerBox>>, disk: Disk)
    : (r: seq<Step>)
    ensures |r| == |items|
    ensures forall i :: 0 <= i < |items| ==> r[i] == ExportImageAsWritten(items[i].0, items[i].1, boxes, disk)
  {
    seq(|items|, i requires 0 <= i < |items| => ExportImageAsWritten(items[i].0, items[i].1, boxes, disk))
  }

  /** The export loop as the module is written. */
  function RunAsWritten(items: seq<(Part, string)>, boxes: map<string, seq<CornerBox>>, disk: Disk): Progress {
    RunSteps(OutcomesAsWritten(items, boxes, disk))
  }

  /** As written, an image gets through the loop only when its copy works
      and it has no boxes. */
  ghost predicate PassesAsWritten(path: string, boxes: map<string, seq<CornerBox>>, disk: Disk) {
    path !in disk.copyFails && !HasBoxes(path, boxes)
  }

  /** As written, the loop copies the images before the one it stops at,
      and that one too unless its own copy failed. */
  lemma CopiesAsWritten(items: seq<(Part, string)>, boxes: map<string, seq<CornerBox>>, disk: Disk)
    ensures var r := RunAsWritten(items, boxes, disk);
      && (r.stopped.None? ==> Copied(r.effects) == items)
      && (r.stopped.Some? ==>
            var k := r.stopped.value.0;
            Copied(r.effects) == if items[k].1 in disk.copyFails then items[..k] else items[..k + 1])
  {
    var steps := OutcomesAsWritten(items, boxes, disk);
    EachCopiesAsWritten(items, boxes, disk);
    RunStepsCopies(steps, items);
    var r := RunSteps(steps);
    assert r == RunAsWritten(items, boxes, disk);
    if r.stopped.Some? {
      var k := r.stopped.value.0;
      RunStepsStop(steps);
      assert Copied(r.effects) == items[..k] + Copied(steps[k].0);
      StopCopiesAsWritten(items, k, boxes, disk);
    }
  }

  /** As written, the images before position `k` followed by what the
      outcome at `k` copies are those before `k`, and `k` itself unless its
      copy failed. */
  lemma StopCopiesAsWritten(items: seq<(Part, string)>, k: nat, boxes: map<string, seq<CornerBox>>, disk: Disk)
    requires k < |items|
    ensures var step := OutcomesAsWritten(items, boxes, disk)[k];
      items[..k] + Copied(step.0) == if items[k].1 in disk.copyFails then items[..k] else items[..k + 1]
  {
    CopiesOneAsWritten(items[k], boxes, disk);
    if items[k].1 !in disk.copyFails {
      assert items[..k + 1] == items[..k] + [items[k]];
    } else {
      assert items[..k] + [] == items[..k];
    }
  }

  /** As written, every image's outcome copies that image or nothing. */
  lemma EachCopiesAsWritten(items: seq<(Part, string)>, boxes: map<string, seq<CornerBox>>, disk: Disk)
    ensures var steps := OutcomesAsWritten(items, boxes, disk);
      forall i :: 0 <= i < |items| ==> CopiesItem(steps[i], items[i])
  {
    var steps := OutcomesAsWritten(items, boxes, disk);
    forall i | 0 <= i < |items| ensures CopiesItem(steps[i], items[i]) {
      CopiesOneAsWritten(items[i], boxes, disk);
    }
  }

  /** As written, one image's outcome copies exactly that image unless its
      copy fails. */
  lemma CopiesOneAsWritten(item: (Part, string), boxes: map<string, seq<CornerBox>>, disk: Disk)
    ensures var step := ExportImageAsWritten(item.0, item.1, boxes, disk);
      && CopiesItem(step, item)
      && Copied(step.0) == if item.1 in disk.copyFails then [] else [item]
  {
    assert [CopyImage(item.0, item.1)][1..] == [];
  }

  /** As written, the loop never writes a label file; it completes exactly
      when every image passes, and otherwise stops at the first image whose
      copy fails (nothing of it copied) or that has boxes (right after its
      copy). */
  lemma AnnotatedImageAborts(items: seq<(Part, string)>, boxes: map<string, seq<CornerBox>>, disk: Disk)
    ensures var r := RunAsWritten(items, boxes, disk);
      && Labelled(r.effects) == []
      && (r.stopped.None? <==> forall i :: 0 <= i < |items| ==> PassesAsWritten(items[i].1, boxes, disk))
      && (r.stopped.None? ==> Copied(r.effects) == items)
      && (r.stopped.Some? ==>
            var k := r.stopped.value.0;
            && k < |items|
            && (forall i :: 0 <= i < k ==> PassesAsWritten(items[i].1, boxes, disk))
            && (items[k].1 in disk.copyFails ==>
                  r.stopped.value.1 == CopyFailed(items[k].1) && Copied(r.effects) == items[..k])
            && (items[k].1 !in disk.copyFails ==>
                  && HasBoxes(items[k].1, boxes)
                  && r.stopped.value.1 == ImreadUndefined(items[k].1)
                  && Copied(r.effects) == items[..k + 1]))
  {
    var steps := OutcomesAsWritten(items, boxes, disk);
    RunStepsNoLabels(steps);
    RunStepsStop(steps);
    CopiesAsWritten(items, boxes, disk);
    PassesExactlyAsWritten(items, boxes, disk);
  }

  /** As written, an image's outcome lets the loop go on exactly when the
      image passes. */
  lemma PassesExactlyAsWritten(items: seq<(Part, string)>, boxes: map<string, seq<CornerBox>>, disk: Disk)
    ensures var steps := OutcomesAsWritten(items, boxes, disk);
      forall i :: 0 <= i < |items| ==> (steps[i].1.None? <==> PassesAsWritten(items[i].1, boxes, disk))
  {
  }

  /** `AnnotatedImageAborts` over a split of the shuffled list, stated in
      terms of the shuffled images. */
  lemma OutcomeAsWritten(split: Split, shuffled: seq<string>, boxes: map<string, seq<CornerBox>>, disk: Disk)
    requires split.train + split.valid + split.test == shuffled
    ensures var r := RunAsWritten(Schedule(split), boxes, disk);
      && Labelled(r.effects) == []
      && (r.stopped.None? <==> forall x :: x in shuffled ==> PassesAsWritten(x, boxes, disk))
      && (r.stopped.None? ==> Copied(r.effects) == Schedule(split))
      && (r.stopped.Some? ==>
            var k := r.stopped.value.0;
            && k < |shuffled|
            && (forall i :: 0 <= i < k ==> PassesAsWritten(shuffled[i], boxes, disk))
            && (|| (r.stopped.value.1 == CopyFailed(shuffled[k]) && Copied(r.effects) == Schedule(split)[..k])
                || (r.stopped.value.1 == ImreadUndefined(shuffled[k]) && HasBoxes(shuffled[k], boxes)
                    && Copied(r.effects) == Schedule(split)[..k + 1])))
  {
    var items := Schedule(split);
    AnnotatedImageAborts(items, boxes, disk);
    ScheduleCoversShuffled(split, shuffled);
    forall x | x in shuffled ensures exists i :: 0 <= i < |items| && items[i].1 == x {
      var i :| 0 <= i < |shuffled| && shuffled[i] == x;
      assert items[i].1 == x;
    }
  }

  /** `export_dataset` as the module is written: the checks and the split as
      in `Export`, then the loop of `RunAsWritten`. */
  function ExportAsWritten(exportDir: string, images: seq<string>, shuffled: seq<string>, p: Percentages,
                           boxes: map<string, seq<CornerBox>>, t: Table, dirsOk: bool, disk: Disk,
                           form: TrainingForm): (r: Outcome)
    requires InSpinRange(p)
    requires multiset(shuffled) == multiset(images)
    ensures r.Rejected? <==> Validate(exportDir, images, p).Some?
    ensures r.DirectoriesFailed? <==> Validate(exportDir, images, p).None? && !dirsOk
    ensures r.Exported? <==>
      && Validate(exportDir, images, p).None? && dirsOk
      && forall x :: x in shuffled ==> PassesAsWritten(x, boxes, disk)
    ensures r.Exported? ==> Labelled(r.effects) == [] && Copied(r.effects) == Schedule(r.split)
    ensures r.Exported? ==>
      r.split == Partition(shuffled, p) && r.data == DescribeDataset(t) && r.config == ConfigFor(form)
    ensures r.Aborted? ==>
      && Labelled(r.effects) == []
      && r.at < |shuffled|
      && (forall i :: 0 <= i < r.at ==> PassesAsWritten(shuffled[i], boxes, disk))
      && (|| (r.failure == CopyFailed(shuffled[r.at]) && Copied(r.effects) == Planned(shuffled, p)[..r.at])
          || (r.failure == ImreadUndefined(shuffled[r.at]) && HasBoxes(shuffled[r.at], boxes)
              && Copied(r.effects) == Planned(shuffled, p)[..r.at + 1]))
  {
    match Validate(exportDir, images, p)
    case Some(e) => Rejected(e)
    case None =>
      if !dirsOk then DirectoriesFailed
      else
        var split := Partition(shuffled, p);
        var run := RunAsWritten(Schedule(split), boxes, disk);
        OutcomeAsWritten(split, shuffled, boxes, disk);
        match run.stopped
        case Some((at, f)) => Aborted(run.effects, at, f)
        case None => Exported(run.effects, split, DescribeDataset(t), ConfigFor(form))
  }

  /** The smallest input that shows the missing import: one image with one
      box of a known class, all of it for training. As written, the export
      copies the image and then aborts; the intended export writes the label
      file and completes. */
  lemma ImreadUndefinedExample(form: TrainingForm)
    ensures var img := "a.png";
      var boxes := map[img := [CornerBox(0.0, 0.0, 10.0, 10.0, "cat")]];
      var t := [Entry("cat", Color(255, 0, 0))];
      var disk := Disk({}, map[img := Size(10, 10)]);
      var p := Percentages(100, 0, 0);
      && ExportAsWritten("out", [img], [img], p, boxes, t, true, disk, form)
         == Aborted([CopyImage(TrainPart, img)], 0, ImreadUndefined(img))
      && Export("out", [img], [img], p, boxes, t, true, disk, form).Exported?
  {
    var img := "a.png";
    var boxes := map[img := [CornerBox(0.0, 0.0, 10.0, 10.0, "cat")]];
    var t := [Entry("cat", Color(255, 0, 0))];
    var disk := Disk({}, map[img := Size(10, 10)]);
    var p := Percentages(100, 0, 0);
    var split := Partition([img], p);
    assert split == Split([img], [], []);
    assert Schedule(split) == [(TrainPart, img)];
    assert IndexOf(t, "cat") == Some(0);
    var w := EncodeCornerBoxes(boxes[img], t, disk.sizes[img]);
    assert w.error.None?;
  }

  /** The dataset descriptor (`data.yaml`). */
  datatype DataYaml = DataYaml(train: string, val: string, test: string, nc: nat, names: seq<string>)

  /** The training-form values copied into the run configuration. */
  datatype TrainingForm = TrainingForm(modelWeights: string, epochs: int, imgsz: int,
                                       batchSize: int, lr0: real, runName: string, saveBest: bool)

  /** The run configuration (`train_config.yaml`). */
  datatype TrainConfig = TrainConfig(modelWeights: string, dataYaml: string, epochs: int, imgsz: int,
                                     batchSize: int, lr0: real, runName: string, saveBest: bool)

  /** The descriptor's contents: partition image folders relative to the
      export directory, and the class names in table order. */
  function DescribeDataset(t: Table): (d: DataYaml)
    ensures d.nc == |t| == |d.names|
    ensures forall i :: 0 <= i < |t| ==> d.names[i] == t[i].name
    ensures d.train == "train/images" && d.val == "valid/images" && d.test == "test/images"
  {
    DataYaml("train/images", "valid/images", "test/images", |t|, Names(t))
  }

  function ConfigFor(form: TrainingForm): (c: TrainConfig)
    ensures c.dataYaml == "./data.yaml"
    ensures c.runName == form.runName && c.modelWeights == form.modelWeights
    ensures c.epochs == form.epochs && c.imgsz == form.imgsz && c.batchSize == form.batchSize
    ensures c.lr0 == form.lr0 && c.saveBest == form.saveBest
  {
    TrainConfig(form.modelWeights, "./data.yaml", form.epochs, form.imgsz,
                form.batchSize, form.lr0, form.runName, form.saveBest)
  }

  datatype Outcome =
    | Rejected(reason: ValidationError)
    | DirectoriesFailed
    | Aborted(effects: seq<Effect>, at: nat, failure: Failure)
    | Exported(effects: seq<Effect>, split: Split, data: DataYaml, config: TrainConfig)

  /** `export_dataset`. `shuffled` is the image list after
      `random.shuffle`; `dirsOk` says whether the six folders could be
      created. */
  function Export(exportDir: string, images: seq<string>, shuffled: seq<string>, p: Percentages,
                  boxes: map<string, seq<CornerBox>>, t: Table, dirsOk: bool, disk: Disk,
                  form: TrainingForm): (r: Outcome)
    requires InSpinRange(p)
    requires multiset(shuffled) == multiset(images)
    ensures r.Rejected? <==> Validate(exportDir, images, p).Some?
    ensures r.Rejected? ==> r.reason == Validate(exportDir, images, p).value
    ensures r.DirectoriesFailed? <==> Validate(exportDir, images, p).None? && !dirsOk
    ensures r.Aborted? ==>
      && Validate(exportDir, images, p).None?
      && r.at < |shuffled| == |images|
      && (Copied(r.effects) == Planned(shuffled, p)[..r.at]
          || Copied(r.effects) == Planned(shuffled, p)[..r.at + 1])
    ensures r.Exported? ==>
      && r.split == Partition(shuffled, p)
      && Copied(r.effects) == Schedule(r.split)
      && r.split.train + r.split.valid + r.split.test == shuffled
      && r.data == DescribeDataset(t)
      && r.config == ConfigFor(form)
      && forall x :: x in Labelled(r.effects) <==> x in shuffled && GetsLabels(x, boxes, disk)
    ensures Validate(exportDir, images, p).None? && dirsOk ==>
      var items := Planned(shuffled, p);
      && (r.Exported? <==> forall i :: 0 <= i < |items| ==> ExportImage(items[i].0, items[i].1, boxes, t, disk).1.None?)
      && (r.Aborted? ==>
            && ExportImage(items[r.at].0, items[r.at].1, boxes, t, disk).1 == Some(r.failure)
            && forall i :: 0 <= i < r.at ==> ExportImage(items[i].0, items[i].1, boxes, t, disk).1.None?)
  {
    match Validate(exportDir, images, p)
    case Some(e) => Rejected(e)
    case None =>
      if !dirsOk then DirectoriesFailed
      else
        var split := Partition(shuffled, p);
        var run := Run(Schedule(split), boxes, t, disk);
        assert |shuffled| == |images| by {
          assert |multiset(shuffled)| == |multiset(images)|;
        }
        RunOutcome(split, shuffled, boxes, t, disk);
        RunStops(Schedule(split), boxes, t, disk);
        match run.stopped
        case Some((at, f)) => Aborted(run.effects, at, f)
        case None => Exported(run.effects, split, DescribeDataset(t), ConfigFor(form))
  }

  /** What running the export loop over a split of `shuffled` achieves: a
      run without failure copies the whole schedule and labels exactly the
      images with boxes and a readable size; a stopped run copied the
      images before the failing one, and perhaps that one. */
  lemma RunOutcome(split: Split, shuffled: seq<string>, boxes: map<string, seq<CornerBox>>, t: Table, disk: Disk)
    requires split.train + split.valid + split.test == shuffled
    ensures var r := Run(Schedule(split), boxes, t, disk);
      && (r.stopped.None? ==>
            && Copied(r.effects) == Schedule(split)
            && forall x :: x in Labelled(r.effects) <==> x in shuffled && GetsLabels(x, boxes, disk))
      && (r.stopped.Some? ==>
            && r.stopped.value.0 < |shuffled|
            && (Copied(r.effects) == Schedule(split)[..r.stopped.value.0]
                || Copied(r.effects) == Schedule(split)[..r.stopped.value.0 + 1]))
  {
    var items := Schedule(split);
    ScheduleCoversShuffled(split, shuffled);
    RunCopies(items, boxes, t, disk);
    RunLabels(items, boxes, t, disk);
    var r := Run(items, boxes, t, disk);
    if r.stopped.None? {
      forall x | x in shuffled
        ensures exists i :: 0 <= i < |items| && items[i].1 == x
      {
        var i :| 0 <= i < |shuffled| && shuffled[i] == x;
        assert items[i].1 == x;
      }
    }
  }

  /** The intended loop completes exactly when no image's step fails, and
      otherwise stops at the first image whose step fails, with that
      failure. */
  lemma RunStops(items: seq<(Part, string)>, boxes: map<string, seq<CornerBox>>, t: Table, disk: Disk)
    ensures var r := Run(items, boxes, t, disk);
      && (r.stopped.None? <==>
            forall i :: 0 <= i < |items| ==> ExportImage(items[i].0, items[i].1, boxes, t, disk).1.None?)
      && (r.stopped.Some? ==>
            var k := r.stopped.value.0;
            && k < |items|
            && ExportImage(items[k].0, items[k].1, boxes, t, disk).1 == Some(r.stopped.value.1)
            && forall i :: 0 <= i < k ==> ExportImage(items[i].0, items[i].1, boxes, t, disk).1.None?)
  {
    var steps := Outcomes(items, boxes, t, disk);
    RunStepsStop(steps);
    assert forall i :: 0 <= i < |items| ==> steps[i] == ExportImage(items[i].0, items[i].1, boxes, t, disk);
  }

  /** The order in which the export visits images, each with its set. */
  function Planned(shuffled: seq<string>, p: Percentages): (items: seq<(Part, string)>)
    requires InSpinRange(p) && p.train + p.valid + p.test == 100
    ensures |items| == |shuffled|
  {
    var s := Partition(shuffled, p);
    ScheduleCoversShuffled(s, shuffled);
    Schedule(s)
  }

  /** The schedule visits exactly the shuffled images. */
  lemma ScheduleCoversShuffled(s: Split, shuffled: seq<string>)
    requires s.train + s.valid + s.test == shuffled
    ensures |Schedule(s)| == |shuffled|
    ensures forall i :: 0 <= i < |shuffled| ==> Schedule(s)[i].1 == shuffled[i]
  {
  }
}

=== FILE: drawing_view.dfy ===
/** The mouse logic of the annotation view: a left drag draws a box for the
    selected class, a right drag pans, and the wheel zooms in steps of 10%.
    Rendering, scroll bars and item selection are not modelled. */
module DrawingView {
  import opened Wrappers
  import opened Geometry
  import opened AnnotationStore
  import PyText

  datatype Button = LeftButton | RightButton | OtherButton

  /** `drawing`, `start_point`, the draft rectangle item, the zoom
      percentage and the right-drag anchor. */
  datatype View = View(drawing: bool, start: Option<Point>, draft: Option<Rect>,
                       zoom: real, pan: Option<Point>)

  /** The view as constructed: idle, at 100%. */
  const Fresh := View(false, None, None, 100.0, None)

  /** Smallest width and height, in scene pixels, of a box that is kept. */
  const MinBoxSide: real := 5.0

  /** While drawing there is an anchor point. */
  predicate Wf(v: View) {
    v.drawing ==> v.start.Some?
  }

  /** Idle: no drag in progress and no draft on screen. */
  predicate Idle(v: View) {
    !v.drawing && v.draft.None?
  }

  /** A class is selected when `current_class` is truthy: present and not
      the empty string. */
  predicate Selected(currentClass: Option<string>) {
    currentClass.Some? && currentClass.value != ""
  }

  /** `mousePressEvent`: a right press anchors panning; a left press with a
      class selected starts a drag with an empty draft at `p`; anything else
      leaves the view as is. */
  function Press(v: View, button: Button, p: Point, currentClass: Option<string>): (r: View)
    ensures Wf(v) ==> Wf(r)
    ensures button == RightButton ==> r == v.(pan := Some(p))
    ensures button == LeftButton && Selected(currentClass) ==>
      r.drawing && r.start == Some(p) && r.draft == Some(Rect(p.x, p.y, 0.0, 0.0))
      && r.zoom == v.zoom && r.pan == v.pan
    ensures button == LeftButton && !Selected(currentClass) ==> r == v
    ensures button == OtherButton ==> r == v
  {
    match button
    case RightButton => v.(pan := Some(p))
    case LeftButton =>
      if Selected(currentClass) then
        v.(drawing := true, start := Some(p), draft := Some(DragRect(p, p)))
      else v
    case OtherButton => v
  }

  /** `mouseMoveEvent`: panning takes precedence; during a drag the draft
      becomes the min/max rectangle of the anchor and `p`. */
  function Move(v: View, p: Point): (r: View)
    requires Wf(v)
    ensures Wf(r)
    ensures r.drawing == v.drawing && r.start == v.start && r.zoom == v.zoom
    ensures v.pan.Some? ==> r == v.(pan := Some(p))
    ensures v.pan.None? ==> r.pan.None?
    ensures v.pan.None? && !(v.drawing && v.draft.Some?) ==> r == v
    ensures v.pan.None? && v.drawing && v.draft.Some? ==>
      r.draft.Some? && r.draft.value.w >= 0.0 && r.draft.value.h >= 0.0
      && r.draft.value.x == Min(v.start.value.x, p.x) && r.draft.value.y == Min(v.start.value.y, p.y)
      && r.draft.value.x + r.draft.value.w == Max(v.start.value.x, p.x)
      && r.draft.value.y + r.draft.value.h == Max(v.start.value.y, p.y)
  {
    if v.pan.Some? then v.(pan := Some(p))
    else if v.drawing && v.draft.Some? then v.(draft := Some(DragRect(v.start.value, p)))
    else v
  }

  /** The view and the box lists after a release. */
  datatype Released = Released(view: View, boxes: BoxMap)

  /** The error Python raises when a drag ends with no image to store it
      in (`image_paths[current_image_index]` on an empty list). */
  datatype ReleaseError = NoImage

  /** `mouseReleaseEvent`: a right release ends panning; a left release
      during a drag ends it, discards a rectangle under 5 px wide or high and
      otherwise appends it, tagged with the selected class, to the current
      image's list. */
  function Release(v: View, button: Button, p: Point, tab: Tab, currentClass: string): (r: Result<Released, ReleaseError>)
    requires Wf(v)
    ensures r.Ok? ==> Wf(r.value.view)
    ensures button == RightButton && v.pan.Some? ==> r == Ok(Released(v.(pan := None), tab.boxes))
    ensures !(button == RightButton && v.pan.Some?) && !(button == LeftButton && v.drawing) ==>
      r == Ok(Released(v, tab.boxes))
    ensures !(button == RightButton && v.pan.Some?) && button == LeftButton && v.drawing ==>
      var rect := DragRect(v.start.value, p);
      && (r.Ok? ==> Idle(r.value.view) && r.value.view == v.(drawing := false, draft := None))
      && ((rect.w < MinBoxSide || rect.h < MinBoxSide) ==> r.Ok? && r.value.boxes == tab.boxes)
      && (rect.w >= MinBoxSide && rect.h >= MinBoxSide ==>
            (r.Err? <==> PyText.Index(tab.paths, tab.index).None?)
            && (r.Ok? ==>
                  var path := PyText.Index(tab.paths, tab.index).value;
                  r.value.boxes == AppendBox(tab.boxes, path, Box(rect, currentClass))))
  {
    if button == RightButton && v.pan.Some? then Ok(Released(v.(pan := None), tab.boxes))
    else if button == LeftButton && v.drawing then
      var rect := DragRect(v.start.value, p);
      var idle := v.(drawing := false, draft := None);
      if rect.w < MinBoxSide || rect.h < MinBoxSide then Ok(Released(idle, tab.boxes))
      else match PyText.Index(tab.paths, tab.index)
        case None => Err(NoImage)
        case Some(path) => Ok(Released(idle, AppendBox(tab.boxes, path, Box(rect, currentClass))))
    else Ok(Released(v, tab.boxes))
  }

  /** A completed left drag over a valid image adds exactly one box, of the
      drawn rectangle and selected class, at the end of that image's list, or
      nothing at all if the rectangle is too small; no other list changes and
      the view ends idle. This holds even while a right-button pan is held:
      the moves then only shift the pan anchor, and the left release still
      ends the drag. */
  lemma DragAddsAtMostOneBox(v: View, start: Point, end: Point, tab: Tab, cls: string)
    requires IndexOk(tab) && |tab.paths| > 0
    requires Wf(v)
    ensures var pressed := Press(v, LeftButton, start, Some(cls));
      var r := Release(Move(pressed, end), LeftButton, end, tab, cls);
      var path := tab.paths[tab.index];
      var before := BoxesOf(tab, path);
      var rect := DragRect(start, end);
      cls != "" ==>
        && r.Ok? && Idle(r.value.view)
        && (forall q :: q in tab.boxes && q != path ==> q in r.value.boxes && r.value.boxes[q] == tab.boxes[q])
        && ((rect.w < MinBoxSide || rect.h < MinBoxSide) ==> r.value.boxes == tab.boxes)
        && (rect.w >= MinBoxSide && rect.h >= MinBoxSide ==>
              r.value.boxes[path] == before + [Box(rect, cls)])
  {
  }

  /** The zoom step of one wheel notch, in percent. */
  const ZoomStep: real := 10.0
  const MinZoom: real := 10.0
  const MaxZoom: real := 400.0

  /** `wheelEvent`: a notch away from the user (`deltaY > 0`) zooms in by 10,
      anything else zooms out by 10, and the result is clamped to
      `10 .. 400`. Returns the view and the scale factor applied. */
  function Wheel(v: View, deltaY: int): (r: (View, real))
    ensures MinZoom <= r.0.zoom <= MaxZoom
    ensures r.1 * 100.0 == r.0.zoom
    ensures r.0 == v.(zoom := r.0.zoom)
    ensures var target := if deltaY > 0 then v.zoom + ZoomStep else v.zoom - ZoomStep;
      && (MinZoom <= target <= MaxZoom ==> r.0.zoom == target)
      && (target < MinZoom ==> r.0.zoom == MinZoom)
      && (target > MaxZoom ==> r.0.zoom == MaxZoom)
  {
    var z := if deltaY > 0 then v.zoom + ZoomStep else v.zoom - ZoomStep;
    var clamped := Max(MinZoom, Min(z, MaxZoom));
    (v.(zoom := clamped), clamped / 100.0)
  }

  /** Loading an image resets the zoom to whatever fits the window, which can
      lie outside `10 .. 400`; then a zoom-out notch can enlarge the view
      (from 5% to 10%) and a zoom-in notch can shrink it (from 800% to 400%). */
  lemma WheelClampCanReverse()
    ensures Wheel(Fresh.(zoom := 5.0), -120).0.zoom == 10.0
    ensures Wheel(Fresh.(zoom := 800.0), 120).0.zoom == 400.0
  {
  }

  /** Within the range, one notch in and one notch out cancel. */
  lemma WheelInOut(v: View)
    requires MinZoom <= v.zoom <= MaxZoom - ZoomStep
    ensures Wheel(Wheel(v, 120).0, -120).0 == v
  {
  }
}

=== FILE: geometry.dfy ===
/** Scene geometry of the annotation view: points, Qt-style rectangles
    (top-left corner plus width and height, over the reals) and the boxes
    that tag a rectangle with a class name. */
module Geometry {

  datatype Point = Point(x: real, y: real)

  /** A `QRectF`: top-left corner `(x, y)`, width `w`, height `h`. Width and
      height may be negative until the rectangle is normalized. */
  datatype Rect = Rect(x: real, y: real, w: real, h: real) {
    function Center(): Point {
      Point(x + w / 2.0, y + h / 2.0)
    }
  }

  /** One stored annotation of the annotation view: a rectangle and the
      class name it was drawn with. */
  datatype Box = Box(rect: Rect, className: string)

  function Min(a: real, b: real): real { if a <= b then a else b }
  function Max(a: real, b: real): real { if a <= b then b else a }

  /** `QRectF(p1, p2)`: the rectangle from corner `p1` to corner `p2`,
      which has negative extent along an axis where `p2` lies before `p1`. */
  function Spanning(p1: Point, p2: Point): Rect {
    Rect(p1.x, p1.y, p2.x - p1.x, p2.y - p1.y)
  }

  /** `QRectF.normalized()`: flips an axis whose extent is negative. */
  function Normalized(r: Rect): (n: Rect)
    ensures n.w >= 0.0 && n.h >= 0.0
    ensures n.x == Min(r.x, r.x + r.w) && n.x + n.w == Max(r.x, r.x + r.w)
    ensures n.y == Min(r.y, r.y + r.h) && n.y + n.h == Max(r.y, r.y + r.h)
  {
    var (x, w) := if r.w < 0.0 then (r.x + r.w, -r.w) else (r.x, r.w);
    var (y, h) := if r.h < 0.0 then (r.y + r.h, -r.h) else (r.y, r.h);
    Rect(x, y, w, h)
  }

  /** The rectangle drawn by a drag from `start` to `current`:
      `QRectF(start, current).normalized()`. Whatever the drag direction it
      is the per-axis min/max box of the two points. */
  function DragRect(start: Point, current: Point): (r: Rect)
    ensures r.x == Min(start.x, current.x) && r.y == Min(start.y, current.y)
    ensures r.x + r.w == Max(start.x, current.x)
    ensures r.y + r.h == Max(start.y, current.y)
    ensures r.w >= 0.0 && r.h >= 0.0
  {
    Normalized(Spanning(start, current))
  }

  /** Dragging from `a` to `b` or from `b` to `a` yields the same rectangle. */
  lemma DragRectSymmetric(a: Point, b: Point)
    ensures DragRect(a, b) == DragRect(b, a)
  {
  }
}

=== FILE: label_codec.dfy ===
/** The per-image label file of the annotation view: one line
    `class_id x_center y_center width height` per box, the four numbers
    normalized by the image width and height, `class_id` the class's position
    in the class table. Numbers are modelled as reals, a line as its
    whitespace-separated fields. */
module LabelCodec {
  import opened Wrappers
  import opened Geometry
  import opened ClassTable
  import PyText

  type Dim = n: int | n > 0 witness 1

  /** Pixel size of the image shown in the view. */
  datatype Size = Size(width: Dim, height: Dim)

  /** One field of a label line: a number `float()` accepts, or text it
      rejects. */
  datatype Field = Num(value: real) | Garbage

  /** One label line, decoded from or encoded to its five fields. */
  datatype Record = Record(classId: nat, xc: real, yc: real, w: real, h: real)

  datatype LabelError =
    | UnknownClass(name: string)   // `list.index` raised ValueError
    | BadNumber                    // `float()` raised ValueError
    | WrongFieldCount              // unpacking into five names failed
    | ClassIdOutOfRange(id: int)   // `keys[int(class_id)]` raised IndexError

  /** The fields written for a record. */
  function Fields(r: Record): seq<Field> {
    [Num(r.classId as real), Num(r.xc), Num(r.yc), Num(r.w), Num(r.h)]
  }

  /** Normalizing one box against the image size, as the annotation view
      saves it; a class missing from the table is an error. */
  function EncodeBox(b: Box, t: Table, size: Size): (r: Result<Record, LabelError>)
    ensures r.Ok? <==> b.className in Names(t)
    ensures r.Err? ==> r.error == UnknownClass(b.className)
    ensures r.Ok? ==>
      && r.value.classId < |t|
      && t[r.value.classId].name == b.className
      && (forall j :: 0 <= j < r.value.classId ==> t[j].name != b.className)
      && r.value.xc * size.width as real == b.rect.Center().x
      && r.value.yc * size.height as real == b.rect.Center().y
      && r.value.w * size.width as real == b.rect.w
      && r.value.h * size.height as real == b.rect.h
  {
    var W := size.width as real;
    var H := size.height as real;
    match IndexOf(t, b.className)
    case None => Err(UnknownClass(b.className))
    case Some(id) =>
      Ok(Record(id, b.rect.Center().x / W, b.rect.Center().y / H, b.rect.w / W, b.rect.h / H))
  }

  /** `map(float, fields)` unpacked into five names: Python converts the
      fields in order while unpacking (at most six of them), so a bad number
      among those wins over a wrong count. */
  function ParseFields(line: seq<Field>): (r: Result<seq<real>, LabelError>)
    ensures r.Ok? <==> |line| == 5 && forall i :: 0 <= i < 5 ==> line[i].Num?
    ensures r.Ok? ==> |r.value| == 5 && forall i :: 0 <= i < 5 ==> r.value[i] == line[i].value
  {
    var n := if |line| < 6 then |line| else 6;
    if exists i :: 0 <= i < n && line[i].Garbage? then Err(BadNumber)
    else if |line| != 5 then Err(WrongFieldCount)
    else Ok(seq(5, i requires 0 <= i < 5 => line[i].value))
  }

  /** Turning one label line back into a box: `class_id` goes through
      `int()` and indexes the class names (negative ids count from the end,
      as in Python); the rectangle is rebuilt around the stored centre. */
  function DecodeLine(line: seq<Field>, t: Table, size: Size): (r: Result<Box, LabelError>)
    ensures r.Ok? ==> ParseFields(line).Ok?
    ensures r.Ok? ==>
      var W := size.width as real;
      var H := size.height as real;
      && -|t| <= PyText.Trunc(line[0].value) < |t|
      && r.value.rect.Center() == Point(line[1].value * W, line[2].value * H)
      && r.value.rect.w == line[3].value * W
      && r.value.rect.h == line[4].value * H
    ensures ParseFields(line).Ok? ==> (r.Ok? <==> -|t| <= PyText.Trunc(line[0].value) < |t|)
    ensures ParseFields(line).Ok? && r.Err? ==>
      r.error == ClassIdOutOfRange(PyText.Trunc(line[0].value))
    ensures ParseFields(line).Err? ==> r == Err(ParseFields(line).error)
    ensures r.Ok? && 0.0 <= line[0].value ==> r.value.className == t[line[0].value.Floor].name
    ensures r.Ok? && PyText.Trunc(line[0].value) >= 0 ==>
      r.value.className == t[PyText.Trunc(line[0].value)].name
    ensures r.Ok? && PyText.Trunc(line[0].value) < 0 ==>
      r.value.className == t[|t| + PyText.Trunc(line[0].value)].name
  {
    match ParseFields(line)
    case Err(e) => Err(e)
    case Ok(v) =>
      var id := PyText.Trunc(v[0]);
      match PyText.Index(Names(t), id)
      case None => Err(ClassIdOutOfRange(id))
      case Some(name) =>
        var W := size.width as real;
        var H := size.height as real;
        Ok(Box(Rect((v[1] - v[3] / 2.0) * W, (v[2] - v[4] / 2.0) * H, v[3] * W, v[4] * H), name))
  }

  /** What the annotation view writes before any error: the records of the
      boxes encoded so far, and the error that stopped it if any. */
  datatype Written = Written(records: seq<Record>, error: Option<LabelError>)

  /** `save_annotation_for_image`'s loop: boxes are encoded in order; the
      first box whose class is not in the table raises, leaving the lines of
      the earlier boxes in the file. */
  function EncodeBoxes(boxes: seq<Box>, t: Table, size: Size): (r: Written)
    ensures r.error.None? ==> |r.records| == |boxes|
    ensures r.error.Some? ==>
      |r.records| < |boxes| && EncodeBox(boxes[|r.records|], t, size) == Err(r.error.value)
    ensures forall i :: 0 <= i < |r.records| ==> EncodeBox(boxes[i], t, size) == Ok(r.records[i])
    ensures r.error.None? <==> forall i :: 0 <= i < |boxes| ==> boxes[i].className in Names(t)
  {
    if |boxes| == 0 then Written([], None)
    else match EncodeBox(boxes[0], t, size)
      case Err(e) => Written([], Some(e))
      case Ok(rec) =>
        var rest := EncodeBoxes(boxes[1..], t, size);
        Written([rec] + rest.records, rest.error)
  }

  /** What loading reads before any error: the boxes of the lines decoded so
      far, and the error that stopped it if any. */
  datatype Loaded = Loaded(boxes: seq<Box>, error: Option<LabelError>)

  /** `load_annotations`'s loop: lines are decoded in order; the first bad
      line raises, and the boxes of the earlier lines stay loaded. */
  function DecodeLines(lines: seq<seq<Field>>, t: Table, size: Size): (r: Loaded)
    ensures r.error.None? ==> |r.boxes| == |lines|
    ensures r.error.Some? ==>
      |r.boxes| < |lines| && DecodeLine(lines[|r.boxes|], t, size) == Err(r.error.value)
    ensures forall i :: 0 <= i < |r.boxes| ==> DecodeLine(lines[i], t, size) == Ok(r.boxes[i])
  {
    if |lines| == 0 then Loaded([], None)
    else match DecodeLine(lines[0], t, size)
      case Err(e) => Loaded([], Some(e))
      case Ok(b) =>
        var rest := DecodeLines(lines[1..], t, size);
        Loaded([b] + rest.boxes, rest.error)
  }

  /** The lines of a label file holding `records`. */
  function Serialize(records: seq<Record>): (lines: seq<seq<Field>>)
    ensures |lines| == |records|
    ensures forall i :: 0 <= i < |records| ==> lines[i] == Fields(records[i])
  {
    seq(|records|, i requires 0 <= i < |records| => Fields(records[i]))
  }

  /** Normalizing and denormalizing over the reals gives back the rectangle. */
  lemma DenormalizeNormalize(x: real, w: real, W: real)
    requires W > 0.0
    ensures ((x + w / 2.0) / W - (w / W) / 2.0) * W == x
    ensures (w / W) * W == w
  {
    var c := x + w / 2.0;
    assert (c / W) * W == c;
    assert (w / W) * W == w;
    calc {
      (c / W - (w / W) / 2.0) * W;
      (c / W) * W - ((w / W) * W) / 2.0;
      c - w / 2.0;
    }
  }

  /** Decoding the line saved for a box gives back that box, class and
      rectangle, whenever its class is in the table. */
  lemma DecodeEncodeBox(b: Box, t: Table, size: Size)
    requires b.className in Names(t)
    ensures DecodeLine(Fields(EncodeBox(b, t, size).value), t, size) == Ok(b)
  {
    var rec := EncodeBox(b, t, size).value;
    assert PyText.Trunc(rec.classId as real) == rec.classId;
    assert PyText.Index(Names(t), rec.classId) == Some(b.className);
    DenormalizeNormalize(b.rect.x, b.rect.w, size.width as real);
    DenormalizeNormalize(b.rect.y, b.rect.h, size.height as real);
    var d := DecodeLine(Fields(rec), t, size);
    assert d.Ok?;
    assert d.value.rect == b.rect;
  }

  /** Saving the box decoded from a well-formed line gives back the line,
      provided class names are unique and the id is in range. */
  lemma EncodeDecodeLine(rec: Record, t: Table, size: Size)
    requires UniqueNames(t) && rec.classId < |t|
    ensures DecodeLine(Fields(rec), t, size).Ok?
    ensures EncodeBox(DecodeLine(Fields(rec), t, size).value, t, size) == Ok(rec)
  {
    DecodeRecord(rec, t, size);
    IndexOfUnique(t, rec.classId);
    var b := DecodeLine(Fields(rec), t, size).value;
    var W := size.width as real;
    var H := size.height as real;
    assert b.rect.Center().x / W == rec.xc;
    assert b.rect.Center().y / H == rec.yc;
    assert b.rect.w / W == rec.w;
    assert b.rect.h / H == rec.h;
  }

  /** The line of an in-range record decodes, to the record's class. */
  lemma DecodeRecord(rec: Record, t: Table, size: Size)
    requires rec.classId < |t|
    ensures DecodeLine(Fields(rec), t, size).Ok?
    ensures DecodeLine(Fields(rec), t, size).value.className == t[rec.classId].name
  {
    assert PyText.Trunc(rec.classId as real) == rec.classId;
  }

  /** Class-id stability: saving an image's boxes and loading the file back
      against the same table restores every box with its class, as long as
      every box's class is still in the table. */
  lemma {:induction false} LoadSavedBoxes(boxes: seq<Box>, t: Table, size: Size)
    requires forall i :: 0 <= i < |boxes| ==> boxes[i].className in Names(t)
    ensures EncodeBoxes(boxes, t, size).error.None?
    ensures DecodeLines(Serialize(EncodeBoxes(boxes, t, size).records), t, size) == Loaded(boxes, None)
  {
    var lines := Serialize(EncodeBoxes(boxes, t, size).records);
    forall i | 0 <= i < |boxes| ensures DecodeLine(lines[i], t, size) == Ok(boxes[i]) {
      DecodeEncodeBox(boxes[i], t, size);
    }
    DecodeAllLines(lines, boxes, t, size);
  }

  /** Lines that each decode to their box decode together to all the boxes. */
  lemma {:induction false} DecodeAllLines(lines: seq<seq<Field>>, boxes: seq<Box>, t: Table, size: Size)
    requires |lines| == |boxes|
    requires forall i :: 0 <= i < |lines| ==> DecodeLine(lines[i], t, size) == Ok(boxes[i])
    ensures DecodeLines(lines, t, size) == Loaded(boxes, None)
  {
    if |lines| > 0 {
      assert DecodeLine(lines[0], t, size) == Ok(boxes[0]);
      assert forall i :: 0 <= i < |lines| - 1 ==> lines[1..][i] == lines[i + 1] && boxes[1..][i] == boxes[i + 1];
      DecodeAllLines(lines[1..], boxes[1..], t, size);
      assert [boxes[0]] + boxes[1..] == boxes;
    }
  }

  /** The worked example: on a 640x480 image the box dragged from (100,100)
      to (300,200) with the first class saves as
      `0 0.3125 0.3125 0.3125 0.208333…` and loads back unchanged. */
  lemma ExampleBox(t: Table)
    requires |t| > 0
    ensures var b := Box(DragRect(Point(100.0, 100.0), Point(300.0, 200.0)), t[0].name);
      && EncodeBox(b, t, Size(640, 480)) == Ok(Record(0, 0.3125, 0.3125, 0.3125, 100.0 / 480.0))
      && DecodeLine(Fields(EncodeBox(b, t, Size(640, 480)).value), t, Size(640, 480)) == Ok(b)
  {
    var b := Box(DragRect(Point(100.0, 100.0), Point(300.0, 200.0)), t[0].name);
    assert b.rect == Rect(100.0, 100.0, 200.0, 100.0);
    assert Names(t)[0] == t[0].name;
    DecodeEncodeBox(b, t, Size(640, 480));
  }
}

=== FILE: pytext.dfy ===
/** The handful of Python built-in behaviours the modelled code leans on:
    indexing with negative positions, `int()` of a float, `str.strip()`,
    `str.split(sep)`, `str.lower()` and `str.endswith()`. */
module PyText {
  import opened Wrappers

  /** `s[i]` in Python: negative positions count from the end; anything
      outside `-|s| .. |s|-1` raises IndexError (here `None`). */
  function Index<T>(s: seq<T>, i: int): (r: Option<T>)
    ensures r.Some? <==> -|s| <= i < |s|
    ensures 0 <= i < |s| ==> r == Some(s[i])
    ensures -|s| <= i < 0 ==> r == Some(s[|s| + i])
  {
    if 0 <= i < |s| then Some(s[i])
    else if -|s| <= i < 0 then Some(s[|s| + i])
    else None
  }

  /** `int(x)` of a float: truncation toward zero. */
  function Trunc(x: real): (r: int)
    ensures 0.0 <= x ==> 0 <= r && r as real <= x < r as real + 1.0
    ensures x < 0.0 ==> r <= 0 && r as real - 1.0 < x <= r as real
  {
    if 0.0 <= x then x.Floor else -((-x).Floor)
  }

  /** The characters Python's `str.isspace()` accepts. */
  predicate IsSpace(c: char) {
    ('\t' <= c <= '\r') || ('\U{1c}' <= c <= '\U{1f}') || c == ' '
    || c == '\U{85}' || c == '\U{a0}' || c == '\U{1680}'
    || ('\U{2000}' <= c <= '\U{200a}') || c == '\U{2028}' || c == '\U{2029}'
    || c == '\U{202f}' || c == '\U{205f}' || c == '\U{3000}'
  }

  /** Number of whitespace characters `s` starts with. */
  function LeadingSpace(s: string): (n: nat)
    ensures n <= |s|
    ensures forall k :: 0 <= k < n ==> IsSpace(s[k])
    ensures n < |s| ==> !IsSpace(s[n])
  {
    if |s| > 0 && IsSpace(s[0]) then 1 + LeadingSpace(s[1..]) else 0
  }

  /** Where the whitespace `s` ends with begins, not going below `lo`. */
  function TrailingStart(s: string, lo: nat): (n: nat)
    requires lo <= |s|
    ensures lo <= n <= |s|
    ensures forall k :: n <= k < |s| ==> IsSpace(s[k])
    ensures lo < n ==> !IsSpace(s[n - 1])
  {
    if lo < |s| && IsSpace(s[|s| - 1]) then TrailingStart(s[..|s| - 1], lo) else |s|
  }

  /** `s.strip()`: drop leading and trailing whitespace. The result is the
      slice `s[i..j]` with only whitespace outside it, and it neither starts
      nor ends with whitespace, so inner whitespace is kept. */
  function Strip(s: string): (r: string)
    ensures |r| > 0 ==> !IsSpace(r[0]) && !IsSpace(r[|r| - 1])
    ensures |r| <= |s|
    ensures exists i, j :: 0 <= i <= j <= |s| && r == s[i..j] && Outside(s, i, j)
    ensures |s| > 0 && !IsSpace(s[0]) && !IsSpace(s[|s| - 1]) ==> r == s
  {
    var i := LeadingSpace(s);
    var j := TrailingStart(s, i);
    assert Outside(s, i, j);
    s[i..j]
  }

  /** Every character of `s` before `i` or from `j` on is whitespace. */
  predicate Outside(s: string, i: nat, j: nat)
    requires i <= j <= |s|
  {
    (forall k :: 0 <= k < i ==> IsSpace(s[k])) && (forall k :: j <= k < |s| ==> IsSpace(s[k]))
  }

  /** Number of occurrences of `c` in `s`. */
  function Count(s: string, c: char): nat {
    if |s| == 0 then 0 else (if s[0] == c then 1 else 0) + Count(s[1..], c)
  }

  /** Joining `parts` with `sep` between consecutive elements: `sep.join(parts)`. */
  function JoinWith(parts: seq<string>, sep: char): string
    requires |parts| > 0
  {
    if |parts| == 1 then parts[0] else parts[0] + [sep] + JoinWith(parts[1..], sep)
  }

  /** `s.split(sep)` for a one-character separator: the pieces between
      occurrences of `sep`, empty pieces kept. */
  function Split(s: string, sep: char): (r: seq<string>)
    ensures |r| == Count(s, sep) + 1
    ensures forall i :: 0 <= i < |r| ==> sep !in r[i]
    ensures JoinWith(r, sep) == s
  {
    if |s| == 0 then [""]
    else
      var rest := Split(s[1..], sep);
      if s[0] == sep then [""] + rest
      else
        var r := [[s[0]] + rest[0]] + rest[1..];
        assert r[1..] == rest[1..];
        r
  }

  /** `c.lower()` restricted to ASCII letters. */
  function LowerChar(c: char): char {
    if 'A' <= c <= 'Z' then (c as int + 32) as char else c
  }

  function Lower(s: string): (r: string)
    ensures |r| == |s|
    ensures forall i :: 0 <= i < |s| ==> r[i] == LowerChar(s[i])
  {
    seq(|s|, i requires 0 <= i < |s| => LowerChar(s[i]))
  }

  predicate EndsWith(s: string, suffix: string) {
    |suffix| <= |s| && s[|s| - |suffix|..] == suffix
  }

  /** `s.endswith(suffixes)` for a tuple of suffixes: true exactly when
      one of them ends `s`. */
  function EndsWithAny(s: string, suffixes: seq<string>): (b: bool)
    ensures b <==> exists i :: 0 <= i < |suffixes| && EndsWith(s, suffixes[i])
  {
    if |suffixes| == 0 then false
    else if EndsWith(s, suffixes[0]) then true
    else
      var b := EndsWithAny(s, suffixes[1..]);
      assert forall i :: 1 <= i < |suffixes| ==> suffixes[i] == suffixes[1..][i - 1];
      b
  }

  /** `posixpath.join(a, b)`: an absolute `b` replaces `a`; otherwise a `/`
      is inserted unless `a` is empty or already ends with one. */
  function Join(a: string, b: string): (r: string)
    ensures |b| > 0 && b[0] == '/' ==> r == b
    ensures !(|b| > 0 && b[0] == '/') ==> EndsWith(r, b)
    ensures (|b| == 0 || b[0] != '/') && a != "" && a[|a| - 1] != '/' ==> r == a + "/" + b
    ensures (|b| == 0 || b[0] != '/') && (a == "" || a[|a| - 1] == '/') ==> r == a + b
  {
    if |b| > 0 && b[0] == '/' then b
    else if a == "" || a[|a| - 1] == '/' then a + b
    else a + "/" + b
  }

  /** Length of the part of `p` up to and including its last `/` (0 when `p`
      has none). */
  function HeadLength(p: string): (n: nat)
    ensures n <= |p|
    ensures n > 0 ==> p[n - 1] == '/'
    ensures forall i :: n <= i < |p| ==> p[i] != '/'
  {
    if |p| == 0 then 0
    else if p[|p| - 1] == '/' then |p|
    else HeadLength(p[..|p| - 1])
  }

  function StripTrailingSlashes(s: string): (r: string)
    ensures |r| <= |s| && r == s[..|r|]
    ensures forall i :: |r| <= i < |s| ==> s[i] == '/'
    ensures |r| == 0 || r[|r| - 1] != '/'
  {
    if |s| > 0 && s[|s| - 1] == '/' then StripTrailingSlashes(s[..|s| - 1]) else s
  }

  /** A path with a `/` has a non-empty head. */
  lemma HeadHasSlash(p: string)
    ensures '/' in p ==> HeadLength(p) > 0
  {
    if '/' in p {
      var k :| 0 <= k < |p| && p[k] == '/';
      assert HeadLength(p) > k;
    }
  }

  /** `posixpath.dirname(p)`: everything before the last `/`, trailing
      slashes removed unless the head is nothing but slashes. */
  function Dirname(p: string): (r: string)
    ensures '/' !in p ==> r == ""
    ensures |r| <= |p| && r == p[..|r|]
    ensures |r| > 0 && r[|r| - 1] == '/' ==> forall i :: 0 <= i < |r| ==> r[i] == '/'
    ensures '/' in p ==> 0 < |r| <= HeadLength(p)
    ensures forall i :: |r| <= i < HeadLength(p) ==> p[i] == '/'
    ensures |r| < HeadLength(p) ==> r[|r| - 1] != '/'
  {
    HeadHasSlash(p);
    var head := p[..HeadLength(p)];
    if head != "" && StripTrailingSlashes(head) != "" then StripTrailingSlashes(head) else head
  }

  /** The clauses of `Dirname` pin its result: any string that is a prefix of
      the head, reaches it up to a run of slashes, and ends in a slash only
      when it is the whole head, is the directory part. */
  lemma {:induction false} DirnameUnique(p: string, r: string)
    requires |r| <= HeadLength(p) && r == p[..|r|]
    requires '/' in p ==> 0 < |r|
    requires forall i :: |r| <= i < HeadLength(p) ==> p[i] == '/'
    requires |r| < HeadLength(p) ==> r[|r| - 1] != '/'
    requires |r| > 0 && r[|r| - 1] == '/' ==> forall i :: 0 <= i < |r| ==> r[i] == '/'
    ensures r == Dirname(p)
  {
    var d := Dirname(p);
    if |r| != |d| {
      assert false;
    }
  }
}

=== FILE: run_name.dfy ===
/** The training script's run-name choice and config-relative path
    resolution. The directory `runs/detect` is modelled as the finite set of
    run names already present in it. */
module RunName {
  import PyText
  import DatasetExport

  function DigitChar(d: nat): char
    requires d < 10
  {
    ('0' as int + d) as char
  }

  predicate AllDigits(s: string) {
    forall i :: 0 <= i < |s| ==> '0' <= s[i] <= '9'
  }

  /** The number a string of decimal digits spells, most significant first. */
  function DigitsValue(s: string): nat
    requires AllDigits(s)
  {
    if |s| == 0 then 0 else 10 * DigitsValue(s[..|s| - 1]) + (s[|s| - 1] as int - '0' as int)
  }

  /** `str(n)` for a natural number: digits only, no leading zero, spelling
      `n`. */
  function Decimal(n: nat): (s: string)
    ensures |s| >= 1 && AllDigits(s)
    ensures n > 0 ==> s[0] != '0'
    ensures DigitsValue(s) == n
    decreases n
  {
    if n < 10 then [DigitChar(n)]
    else
      var s := Decimal(n / 10) + [DigitChar(n % 10)];
      assert s[..|s| - 1] == Decimal(n / 10);
      s
  }

  /** A digit string without a leading zero spells a positive number. */
  lemma {:induction false} LeadingDigitPositive(s: string)
    requires |s| >= 1 && AllDigits(s) && s[0] != '0'
    ensures DigitsValue(s) >= 1
  {
    if |s| > 1 {
      var t := s[..|s| - 1];
      assert t[0] == s[0];
      LeadingDigitPositive(t);
    }
  }

  /** `Decimal` is the only spelling without leading zeros: every non-empty
      digit string that does not start with `0` (or is just `0`) is `str` of
      its value. */
  lemma {:induction false} DecimalCanonical(s: string)
    requires |s| >= 1 && AllDigits(s)
    requires |s| > 1 ==> s[0] != '0'
    ensures Decimal(DigitsValue(s)) == s
  {
    var n := DigitsValue(s);
    if |s| == 1 {
      assert DigitsValue(s[..0]) == 0;
      assert '0' <= s[0] <= '9' && n == s[0] as int - '0' as int;
      assert s == [DigitChar(n)];
    } else {
      var t := s[..|s| - 1];
      assert t[0] == s[0];
      LeadingDigitPositive(t);
      DecimalCanonical(t);
      assert n / 10 == DigitsValue(t) && n % 10 == s[|s| - 1] as int - '0' as int;
      assert s == t + [s[|s| - 1]];
    }
  }

  /** Distinct numbers have distinct decimal strings, since each spells
      its own value. */
  lemma DecimalInjective(a: nat, b: nat)
    requires Decimal(a) == Decimal(b)
    ensures a == b
  {
  }

  /** The `k`-th name tried: `base` itself, then `base1`, `base2`, … */
  function Candidate(base: string, k: nat): string {
    if k == 0 then base else base + Decimal(k)
  }

  lemma CandidatesDistinct(base: string, i: nat, j: nat)
    requires i != j
    ensures Candidate(base, i) != Candidate(base, j)
  {
    if i > 0 && j > 0 {
      assert Decimal(i) == Candidate(base, i)[|base|..];
      assert Decimal(j) == Candidate(base, j)[|base|..];
    }
  }

  /** If the first `k` candidates are all taken, at least `k` names are
      taken: the search cannot run past `|taken|`. */
  lemma {:induction false} TakenBound(base: string, taken: set<string>, k: nat)
    requires forall j :: 0 <= j < k ==> Candidate(base, j) in taken
    ensures k <= |taken|
  {
    var tried := Tried(base, k);
    TriedCount(base, k);
    assert taken == tried + (taken - tried);
  }

  /** The names tried before the `k`-th candidate. */
  ghost function Tried(base: string, k: nat): set<string> {
    set j | 0 <= j < k :: Candidate(base, j)
  }

  lemma TriedStep(base: string, k: nat)
    requires k > 0
    ensures Tried(base, k) == Tried(base, k - 1) + {Candidate(base, k - 1)}
  {
    forall s | s in Tried(base, k) ensures s in Tried(base, k - 1) + {Candidate(base, k - 1)} {
      var j :| 0 <= j < k && Candidate(base, j) == s;
      if j < k - 1 {
        assert s in Tried(base, k - 1);
      }
    }
  }

  lemma {:induction false} TriedCount(base: string, k: nat)
    ensures |Tried(base, k)| == k
  {
    if k > 0 {
      TriedCount(base, k - 1);
      TriedStep(base, k);
      if Candidate(base, k - 1) in Tried(base, k - 1) {
        var j :| 0 <= j < k - 1 && Candidate(base, j) == Candidate(base, k - 1);
        CandidatesDistinct(base, j, k - 1);
      }
    }
  }

  /** `get_incremented_run_name`: the first of `base`, `base1`, `base2`, …
      that is not taken. */
  method IncrementedRunName(base: string, taken: set<string>) returns (name: string)
    ensures name !in taken
    ensures base !in taken ==> name == base
    ensures exists k: nat ::
      name == Candidate(base, k) && forall j :: 0 <= j < k ==> Candidate(base, j) in taken
  {
    name := base;
    var counter: nat := 1;
    while name in taken
      invariant name == Candidate(base, counter - 1)
      invariant counter >= 1
      invariant forall j :: 0 <= j < counter - 1 ==> Candidate(base, j) in taken
      decreases |taken| - (counter - 1)
    {
      TakenBound(base, taken, counter);
      name := base + Decimal(counter);
      counter := counter + 1;
    }
  }

  /** `os.path.join(os.path.dirname(config_path), data_yaml)`: where the
      training script looks for the dataset descriptor. */
  function DataYamlPath(configPath: string, dataYaml: string): (r: string)
    ensures '/' !in configPath ==> r == PyText.Join("", dataYaml)
    ensures |dataYaml| > 0 && dataYaml[0] == '/' ==> r == dataYaml
  {
    PyText.Join(PyText.Dirname(configPath), dataYaml)
  }

  /** A relative descriptor path is resolved in the config file's folder:
      for `dir/file` it becomes `dir/<data_yaml>`. */
  lemma DataYamlBesideConfig(dir: string, file: string, dataYaml: string)
    requires dir != "" && dir[|dir| - 1] != '/'
    requires '/' !in file
    requires dataYaml == "" || dataYaml[0] != '/'
    ensures DataYamlPath(dir + "/" + file, dataYaml) == dir + "/" + dataYaml
  {
    var p := dir + "/" + file;
    var n := PyText.HeadLength(p);
    assert p[|dir|] == '/';
    assert forall i :: |dir| < i < |p| ==> p[i] == file[i - |dir| - 1];
    assert forall i :: |dir| < i < |p| ==> p[i] != '/';
    assert n == |dir| + 1;
    assert p[..n] == dir + "/";
    var stripped := PyText.StripTrailingSlashes(dir + "/");
    assert (dir + "/")[..|dir|] == dir;
    assert stripped == PyText.StripTrailingSlashes(dir);
    assert PyText.StripTrailingSlashes(dir) == dir;
    assert PyText.Dirname(p) == dir;
  }

  /** The descriptor path written by the export, read from
      `<dir>/<file>`, is resolved inside `<dir>`. */
  lemma ExportedDataYamlResolves(dir: string, file: string, form: DatasetExport.TrainingForm)
    requires dir != "" && dir[|dir| - 1] != '/'
    requires '/' !in file
    ensures var name := DatasetExport.ConfigFor(form).dataYaml;
      DataYamlPath(dir + "/" + file, name) == dir + "/" + name
  {
    var name := DatasetExport.ConfigFor(form).dataYaml;
    assert name[0] == '.';
    DataYamlBesideConfig(dir, file, name);
  }
}

=== FILE: settings.dfy ===
/** The settings file: `key=value` lines, of which only `default_save_dir`
    is read. Saving writes that one line; loading reads every line and
    raises on a line that does not split into exactly one key and one
    value. The settings tab and the annotation tab load it the same way. */
module Settings {
  import opened Wrappers
  import PyText

  const Key: string := "default_save_dir"

  /** `save_settings`: the whole file. */
  function SaveSettings(dir: string): string
  {
    Key + "=" + dir + "\n"
  }

  /** Reading a text-mode file turns `\r\n` and a lone `\r` into `\n`. */
  function TranslateNewlines(s: string): (r: string)
    ensures '\r' !in r
    ensures |r| <= |s|
    ensures '\r' !in s ==> r == s
    ensures PyText.Count(r, '\n') >= PyText.Count(s, '\r')
  {
    if |s| == 0 then ""
    else if s[0] == '\r' && |s| >= 2 && s[1] == '\n' then "\n" + TranslateNewlines(s[2..])
    else if s[0] == '\r' then "\n" + TranslateNewlines(s[1..])
    else [s[0]] + TranslateNewlines(s[1..])
  }

  /** Line ends are translated one at a time: text up to a `\r\n` is kept,
      the pair becomes a single `\n`, and the text after it is translated on
      its own. */
  lemma TranslateCrLf(a: string, b: string)
    requires '\r' !in a
    ensures TranslateNewlines(a + "\r\n" + b) == a + "\n" + TranslateNewlines(b)
  {
    var crlf := "\r\n" + b;
    assert crlf[0] == '\r' && crlf[1] == '\n' && crlf[2..] == b;
    TranslateKeepsPrefix(a, crlf);
    Regroup(a, "\r\n", b);
    Regroup(a, "\n", TranslateNewlines(b));
  }

  /** A `\r` not followed by `\n` also becomes a single `\n`. */
  lemma TranslateLoneCr(a: string, b: string)
    requires '\r' !in a
    requires |b| == 0 || b[0] != '\n'
    ensures TranslateNewlines(a + "\r" + b) == a + "\n" + TranslateNewlines(b)
  {
    var cr := "\r" + b;
    TranslateCrFirst(b);
    TranslateKeepsPrefix(a, cr);
    Regroup(a, "\r", b);
    Regroup(a, "\n", TranslateNewlines(b));
  }

  lemma Regroup(a: string, m: string, b: string)
    ensures a + m + b == a + (m + b)
  {
  }

  /** A leading `\r` not followed by `\n` becomes `\n`. */
  lemma TranslateCrFirst(b: string)
    requires |b| == 0 || b[0] != '\n'
    ensures TranslateNewlines("\r" + b) == "\n" + TranslateNewlines(b)
  {
    var cr := "\r" + b;
    assert cr[0] == '\r' && cr[1..] == b;
  }

  /** Text without `\r` in front passes through unchanged. */
  lemma {:induction false} TranslateKeepsPrefix(a: string, x: string)
    requires '\r' !in a
    ensures TranslateNewlines(a + x) == a + TranslateNewlines(x)
  {
    if |a| > 0 {
      var y := a + x;
      assert y[0] == a[0] != '\r';
      assert y[1..] == a[1..] + x;
      assert TranslateNewlines(y) == [a[0]] + TranslateNewlines(a[1..] + x);
      assert '\r' !in a[1..] by {
        forall k | 0 <= k < |a| - 1 ensures a[1..][k] != '\r' {
          assert a[1..][k] == a[k + 1];
        }
      }
      TranslateKeepsPrefix(a[1..], x);
      var t := TranslateNewlines(x);
      assert [a[0]] + (a[1..] + t) == ([a[0]] + a[1..]) + t;
      assert [a[0]] + a[1..] == a;
    } else {
      assert a + x == x;
      assert a + TranslateNewlines(x) == TranslateNewlines(x);
    }
  }

  /** The lines `for line in f` yields, without their `\n`: text after the
      last newline is a line only if it is not empty. Joined back with
      newlines they give the translated text, with or without its final
      newline. */
  function Lines(text: string): (r: seq<string>)
    ensures forall i :: 0 <= i < |r| ==> '\n' !in r[i]
    ensures |r| <= PyText.Count(TranslateNewlines(text), '\n') + 1
    ensures PyText.JoinWith(r + [""], '\n') == TranslateNewlines(text)
      || (|r| > 0 && r[|r| - 1] != "" && PyText.JoinWith(r, '\n') == TranslateNewlines(text))
  {
    var parts := PyText.Split(TranslateNewlines(text), '\n');
    if parts[|parts| - 1] == "" then
      assert parts[..|parts| - 1] + [""] == parts;
      parts[..|parts| - 1]
    else parts
  }

  /** The raised ValueError: a line with no `=` (a blank line included) or
      with more than one. */
  datatype SettingsError = MalformedLine(line: string)

  /** One unpacked `key, value` line. */
  datatype Setting = Setting(key: string, value: string)

  /** `key, value = line.strip().split("=")`: the unpacking succeeds exactly
      when the stripped line holds one `=`, and the two parts joined by `=`
      give the stripped line back. */
  function ParseLine(line: string): (r: Result<Setting, SettingsError>)
    ensures r.Ok? <==> PyText.Count(PyText.Strip(line), '=') == 1
    ensures r.Err? ==> r.error == MalformedLine(line)
    ensures r.Ok? ==> '=' !in r.value.key && '=' !in r.value.value
    ensures r.Ok? ==> r.value.key + "=" + r.value.value == PyText.Strip(line)
  {
    var parts := PyText.Split(PyText.Strip(line), '=');
    if |parts| != 2 then Err(MalformedLine(line))
    else
      assert parts[1..] == [parts[1]];
      assert PyText.JoinWith(parts, '=') == parts[0] + ['='] + parts[1];
      assert "=" == ['='];
      Ok(Setting(parts[0], parts[1]))
  }

  /** The value after a sequence of unpacked lines: each `default_save_dir`
      line replaces it, other keys are ignored. */
  function Apply(settings: seq<Setting>, current: string): string {
    if |settings| == 0 then current
    else Apply(settings[1..], if settings[0].key == Key then settings[0].value else current)
  }

  /** Every line of a file, unpacked or rejected. */
  function ParseAll(lines: seq<string>): (r: seq<Result<Setting, SettingsError>>)
    ensures |r| == |lines|
    ensures forall i :: 0 <= i < |lines| ==> r[i] == ParseLine(lines[i])
  {
    seq(|lines|, i requires 0 <= i < |lines| => ParseLine(lines[i]))
  }

  /** What loading leaves behind: the value shown after the lines that
      took effect, and the error that stopped the loop, if any. Each
      `default_save_dir` line is shown as soon as it is read, so the lines
      before a malformed one keep their effect. */
  datatype Reading = Reading(value: string, error: Option<SettingsError>)

  /** The loop over the file's lines, starting from the value already
      shown: the first line that does not unpack raises. */
  function LoadLines(parsed: seq<Result<Setting, SettingsError>>, current: string): (r: Reading)
    ensures r.error.None? <==> forall i :: 0 <= i < |parsed| ==> parsed[i].Ok?
  {
    if |parsed| == 0 then Reading(current, None)
    else match parsed[0]
      case Err(e) => Reading(current, Some(e))
      case Ok(setting) =>
        var rest := LoadLines(parsed[1..], if setting.key == Key then setting.value else current);
        assert forall i :: 1 <= i < |parsed| ==> parsed[i] == parsed[1..][i - 1];
        rest
  }

  /** The values of a run of unpacked lines. */
  function Unpacked(parsed: seq<Result<Setting, SettingsError>>): (r: seq<Setting>)
    requires forall i :: 0 <= i < |parsed| ==> parsed[i].Ok?
    ensures |r| == |parsed|
    ensures forall i :: 0 <= i < |parsed| ==> parsed[i] == Ok(r[i])
  {
    seq(|parsed|, i requires 0 <= i < |parsed| && parsed[i].Ok? => parsed[i].value)
  }

  /** When every line unpacks, loading applies the unpacked lines in order. */
  lemma {:induction false} LoadLinesApplies(parsed: seq<Result<Setting, SettingsError>>, current: string)
    requires forall i :: 0 <= i < |parsed| ==> parsed[i].Ok?
    ensures LoadLines(parsed, current) == Reading(Apply(Unpacked(parsed), current), None)
  {
    if |parsed| > 0 {
      var rest := parsed[1..];
      var first := parsed[0].value;
      var next := if first.key == Key then first.value else current;
      assert forall i :: 0 <= i < |rest| ==> rest[i] == parsed[i + 1];
      LoadLinesApplies(rest, next);
      assert Unpacked(parsed)[1..] == Unpacked(rest);
    }
  }

  /** A malformed line stops the loop with its error; the lines before it
      have taken effect and the lines after it are not read. */
  lemma {:induction false} LoadStopsAt(parsed: seq<Result<Setting, SettingsError>>, current: string, i: nat)
    requires i < |parsed| && parsed[i].Err?
    requires forall j :: 0 <= j < i ==> parsed[j].Ok?
    ensures LoadLines(parsed, current) == Reading(Apply(Unpacked(parsed[..i]), current), Some(parsed[i].error))
  {
    if i > 0 {
      var rest := parsed[1..];
      var first := parsed[0].value;
      var next := if first.key == Key then first.value else current;
      assert forall j :: 0 <= j < |rest| ==> rest[j] == parsed[j + 1];
      LoadStopsAt(rest, next, i - 1);
      assert Unpacked(parsed[..i])[1..] == Unpacked(rest[..i - 1]);
    }
  }

  /** Without a `default_save_dir` line the value is left as it was. */
  lemma {:induction false} NoSettingKeeps(settings: seq<Setting>, current: string)
    requires forall i :: 0 <= i < |settings| ==> settings[i].key != Key
    ensures Apply(settings, current) == current
  {
    if |settings| > 0 {
      NoSettingKeeps(settings[1..], current);
    }
  }

  /** Only `default_save_dir` lines matter and the last one wins. */
  lemma {:induction false} LastSettingWins(settings: seq<Setting>, current: string, i: nat)
    requires i < |settings| && settings[i].key == Key
    requires forall j :: i < j < |settings| ==> settings[j].key != Key
    ensures Apply(settings, current) == settings[i].value
  {
    var rest := settings[1..];
    var next := if settings[0].key == Key then settings[0].value else current;
    if i == 0 {
      NoSettingKeeps(rest, next);
    } else {
      LastSettingWins(rest, next, i - 1);
    }
  }

  /** `load_settings`: a missing file (`None`) leaves the value as it was;
      a malformed line raises. */
  function LoadSettings(file: Option<string>, current: string): (r: Reading)
    ensures file.None? ==> r == Reading(current, None)
    ensures file.Some? ==>
      (r.error.None? <==> forall i :: 0 <= i < |Lines(file.value)| ==> ParseLine(Lines(file.value)[i]).Ok?)
  {
    match file
    case None => Reading(current, None)
    case Some(text) =>
      LoadLines(ParseAll(Lines(text)), current)
  }

  /** Splitting a piece free of the separator, then the separator, then the
      rest, yields the piece followed by the rest's pieces. */
  lemma {:induction false} SplitAtFirst(s: string, sep: char, u: string)
    requires sep !in s
    ensures PyText.Split(s + [sep] + u, sep) == [s] + PyText.Split(u, sep)
  {
    if |s| > 0 {
      assert (s + [sep] + u)[1..] == s[1..] + [sep] + u;
      assert sep !in s[1..];
      SplitAtFirst(s[1..], sep, u);
      assert [s[0]] + s[1..] == s;
    } else {
      assert s + [sep] + u == [sep] + u;
      assert ([sep] + u)[1..] == u;
    }
  }

  /** The file saved for `dir` is the single line `default_save_dir=<dir>`
      when `dir` holds no line break. */
  lemma SaveIsOneLine(dir: string)
    requires '\n' !in dir && '\r' !in dir
    ensures Lines(SaveSettings(dir)) == [Key + "=" + dir]
  {
    var line := Key + "=" + dir;
    assert SaveSettings(dir) == line + ['\n'] + "";
    assert '\r' !in SaveSettings(dir);
    assert '\n' !in line;
    SplitAtFirst(line, '\n', "");
  }

  /** The saved line parses back into the key and `dir`, provided `dir`
      holds no `=` and does not end in whitespace. */
  lemma SavedLineParses(dir: string)
    requires '=' !in dir
    requires dir == "" || !PyText.IsSpace(dir[|dir| - 1])
    ensures ParseLine(Key + "=" + dir) == Ok(Setting(Key, dir))
  {
    var line := Key + "=" + dir;
    SavedLineStripped(dir);
    SavedLineSplits(dir);
    assert PyText.Split(PyText.Strip(line), '=') == [Key, dir];
  }

  /** `strip()` leaves the saved line as it is. */
  lemma SavedLineStripped(dir: string)
    requires dir == "" || !PyText.IsSpace(dir[|dir| - 1])
    ensures PyText.Strip(Key + "=" + dir) == Key + "=" + dir
  {
    var line := Key + "=" + dir;
    assert line[0] == 'd';
    assert line[|line| - 1] == (if dir == "" then '=' else dir[|dir| - 1]);
  }

  /** The saved line splits at its one `=` into the key and `dir`. */
  lemma SavedLineSplits(dir: string)
    requires '=' !in dir
    ensures PyText.Split(Key + "=" + dir, '=') == [Key, dir]
  {
    assert Key + "=" + dir == Key + ['='] + dir;
    SplitAtFirst(Key, '=', dir);
    SplitNoSeparator(dir, '=');
  }

  /** Loading the file saved for `dir` gives `dir` back, provided `dir`
      holds no `=` and no line break and does not end in whitespace (which
      `strip()` would drop). */
  lemma SettingsRoundTrip(dir: string, current: string)
    requires '=' !in dir && '\n' !in dir && '\r' !in dir
    requires dir == "" || !PyText.IsSpace(dir[|dir| - 1])
    ensures LoadSettings(Some(SaveSettings(dir)), current) == Reading(dir, None)
  {
    SaveIsOneLine(dir);
    SavedLineParses(dir);
    var parsed := ParseAll([Key + "=" + dir]);
    assert parsed == [Ok(Setting(Key, dir))];
    assert LoadLines(parsed[1..], dir) == Reading(dir, None);
  }

  lemma {:induction false} SplitNoSeparator(s: string, sep: char)
    requires sep !in s
    ensures PyText.Split(s, sep) == [s]
  {
    if |s| > 0 {
      SplitNoSeparator(s[1..], sep);
    }
  }
}

=== FILE: wrappers.dfy ===
/** Option and Result, the failure-carrying values the model uses in place of
    Python's None and raised exceptions. */
module Wrappers {

  datatype Option<+T> = None | Some(value: T)

  datatype Result<+R, +E> = Ok(value: R) | Err(error: E) {
    predicate IsFailure() { Err? }

    function PropagateFailure<U>(): Result<U, E>
      requires Err?
    {
      Err(error)
    }

    function Extract(): R
      requires Ok?
    {
      value
    }
  }
}
